=== FILE: README.md ===
# acsint bridge: live reading core, in Dafny

This project models the live-reading core of the acsint bridge layer
(`acsbridge.h`), the user-space library an accessibility adapter links
against. The core has four parts:

- **The reading buffer** (`buffer.dfy`, module `ReadingBuffer`). It holds a
  window of console text: a log of tty output in line mode, or a snapshot of
  the screen in screen mode. It also holds a reading cursor, a visual cursor
  and thirty bookmarks. Positions are logical: the n-th cell ever logged has
  position n, and the window is `[Start(), End())`. When output pushes text
  off the back of the log, a reference into the lost text becomes null
  (`None`). Every other reference keeps denoting the same text.
- **Cursor motion** (`motion.dfy`, module `Motion`). Every command moves a
  temp cursor that starts as a copy of the reading cursor. The reading
  cursor changes only on an explicit sync. Commands return 1 or 0, and
  always 0 on an empty buffer. The word rule is shared with extraction and
  lives in `chars.dfy` (module `Chars`): letters and digits, one apostrophe
  between letters, or five or more identical punctuation marks.
- **Sentence extraction** (`sentence.dfy`, module `Sentence`). This models
  `acs_getsentence` with its four `ACS_GS_*` options. It produces a chunk of
  at most `destlen - 1` glyphs read from the cursor. Each cell is downshifted
  to a byte. Blanks are folded and stripped when reading continuously, and
  runs of five or more marks become one repeat glyph. The offset array marks
  where words begin and ends with the number of cells consumed. `Folded` is
  the reference a continuous read is proved to follow: each glyph paired
  with its offset entry, one blank for each run of blanks between glyphs.
  `ReadContinuous` is the same read written as a loop.
- **Index-marker flow control** (`speech.dfy`, module `Speech`). This models
  `ss_say_string_imarks`, `ss_stillTalking` and `ss_shutup`:
  - consecutive marker ids are given, in order, to each word with a nonzero
    offset entry;
  - each returning marker moves the reading cursor onto its word;
  - the synthesizer is still talking until the last marker is back.

  The speech knobs (`levels.dfy`, module `Levels`) and the readiness bitmask
  of `acs_ss_wait` (`events.dfy`, module `Events`) complete the picture.

The host locale (`isalpha`, case folding) is a parameter, `Chars.Locale`.
`Chars.LocaleOk` fixes only the ASCII letters. The registered high-unicode
equivalences are a parameter too (`Chars.Equivalences`).

Interpretations where the header leaves a choice:
- The column that `acs_startline` returns is 1-based, so 0 still means
  failure.
- A marked send whose ids would leave 0..99 is refused and leaves the state
  unchanged.
- A returning marker retires itself and every earlier id, because markers
  come back in order.
- A marker whose word has left the buffer nulls the reading cursor, as
  eviction does.
- A one-word read that takes a whole word also consumes the blanks after it,
  so the next read starts on the next word.
- A stopping newline is consumed but not copied.
- Every apostrophe with a letter on each side joins them, so "rock'n'roll"
  is one word; the header's "one apostrophe between letters" is read per
  apostrophe, not per word.
- A synthesizer that cannot change levels answers -2 to every level setter,
  even for a level off the scale: the inability is checked before the range.
- When one-word is set, the newline options do not apply. Stop-at-newline
  takes precedence over newline-as-space.

## Model

| member | source | states |
|---|---|---|
| ReadingBuffer.EmptyIffStartIsEnd | acsbridge.h:188-190 | the buffer is empty exactly when start equals end |
| ReadingBuffer.ScreenNeverEmpty | acsbridge.h:191-194 | a valid screen-mode buffer always holds text; only line mode can be empty |
| ReadingBuffer.NewLineBuffer | acsbridge.h:193-194 | a console that has produced no output has an empty, valid line-mode buffer with a null cursor |
| ReadingBuffer.Append | acsbridge.h:201-215 | appending output keeps the buffer valid and within capacity; the end moves by the output's length; surviving cells keep their text; each cursor and mark is lost exactly when its position fell off the back |
| ReadingBuffer.EvictionSafety | acsbridge.h:201-215 | after one append, a surviving mark or cursor denotes the same character as before, and a mark is null exactly when its position is before the new start |
| ReadingBuffer.AppendAll | acsbridge.h:201-204 | any sequence of appends keeps the buffer valid, within capacity, and its start and end never move back |
| ReadingBuffer.RepeatedEviction | acsbridge.h:201-215 | over any sequence of appends, the cursor and each mark are null exactly when their position fell off the back, and every position still held shows the same text |
| ReadingBuffer.SurviveTwice | acsbridge.h:210-214 | losing references to a later start subsumes losing them to an earlier one, so successive evictions compose |
| ReadingBuffer.Clear | acsbridge.h:310-311 | acs_clearbuf empties a line-mode buffer and nulls every reference; a screen buffer is left alone |
| ReadingBuffer.ToScreenMode | acsbridge.h:223-229 | switching to screen mode puts the reading cursor on the visual cursor, with no marks set, and the buffer is nonempty |
| ReadingBuffer.SetMark | acsbridge.h:208-212 | a mark set at the cursor records the cursor's position; the other marks, the text, the cursor, the mode and the visual cursor are unchanged |
| ReadingBuffer.GetChar | acsbridge.h:900-907 | acs_getc gives the downshift of the cell under the cursor: the latin-1 character itself, a registered equivalence, or a question mark; null only when there is no cursor |
| Chars.Downshift | acsbridge.h:900-906 | a latin-1 code passes through; a high code with a registered equivalence becomes that ascii symbol; any other high code becomes a question mark; an equivalence never yields a blank or newline |
| Chars.AlnumRunIsOneWord | acsbridge.h:933 | a run of letters and digits is glued into one word, whose start and end span the run |
| Chars.ApostropheBetweenLetters | acsbridge.h:931-932 | one apostrophe between two letters joins them into one word |
| Chars.LoneApostropheSeparates | acsbridge.h:931-932 | an apostrophe not followed by a letter does not join the word before it, which ends there |
| Chars.RepeatRunIsOneWord | acsbridge.h:933-935 | five or more identical punctuation marks are glued into one word that extends to the end of the run |
| Chars.FourMarksAreFourWords | acsbridge.h:936 | a run of exactly four identical marks is four one-cell words |
| Chars.SameWord | acsbridge.h:929-944 | start and end of word agree: the start seen from a word's end is the start seen from any of its cells, and conversely |
| Chars.WordStart | acsbridge.h:929-933 | the start of word is at or before the cell, begins a word, and everything between is glued |
| Chars.WordEnd | acsbridge.h:929-933 | the end of word is at or after the cell, ends a word, and everything between is glued |
| Chars.RunAhead | acsbridge.h:934 | the length of the run of equal cells from a position: every cell counted is equal and the next is not |
| Motion.CursorSet | acsbridge.h:894-895 | the temp cursor takes the reading cursor's position and the buffer is untouched |
| Motion.CursorSync | acsbridge.h:897-898 | the reading cursor takes the temp cursor's position and nothing else changes |
| Motion.SetThenSyncKeepsCursor | acsbridge.h:872-879 | setting and then syncing with no motion in between leaves the buffer as it was |
| Motion.Forward | acsbridge.h:911-915 | forward steps the temp cursor one cell on and answers 1 exactly when it is still in the buffer |
| Motion.Back | acsbridge.h:917-921 | back steps the temp cursor one cell back and answers 1 exactly when it is still in the buffer |
| Motion.ForwardBackInverse | acsbridge.h:911-921 | a successful step forward is undone by a step back, and conversely |
| Motion.StartLine | acsbridge.h:923-926 | start of line fails only without text, lands after the previous newline, and answers the 1-based column |
| Motion.EndLine | acsbridge.h:923-927 | end of line fails only without text and lands on the line's newline or the last cell, crossing no newline |
| Motion.StartWord | acsbridge.h:929-943 | start of word answers 1 exactly when the cursor is on text, and lands on the first cell of the word under it, never further right |
| Motion.EndWord | acsbridge.h:929-944 | end of word answers 1 exactly when the cursor is on text, and lands on the last cell of the word under it, never further left |
| Motion.WordMotionsAgree | acsbridge.h:929-944 | start of word after end of word equals start of word, and conversely |
| Motion.StartBuf | acsbridge.h:946-947 | start of buffer puts the temp cursor on the first cell |
| Motion.EndBuf | acsbridge.h:946-948 | end of buffer puts the temp cursor on the last cell |
| Motion.RightSpaces | acsbridge.h:950-952 | skipping right crosses only blanks and stops on a non-blank or the last cell |
| Motion.LeftSpaces | acsbridge.h:950-951 | skipping left crosses only blanks and stops on a non-blank or the first cell |
| Motion.NextLine | acsbridge.h:954-956 | next line lands just after the line's newline, and fails exactly when no newline follows |
| Motion.PrevLine | acsbridge.h:954-957 | previous line lands at the start of an earlier line, and fails exactly when no newline precedes |
| Motion.LineMotionsAgree | acsbridge.h:923-927 | start of line seen from the line's end, and end of line seen from its start, are those seen from the cursor |
| Motion.NextPrevLine | acsbridge.h:954-957 | when next line succeeds, previous line from there succeeds and lands where start of line would |
| Motion.PrevNextLine | acsbridge.h:954-957 | when previous line succeeds, next line from there succeeds and lands where start of line would |
| Motion.NextWordIdx | acsbridge.h:954-958 | next word skips the rest of the word and then the blanks, lands on a non-blank cell that begins a word, and finds nothing exactly when only blanks follow |
| Motion.NextWord | acsbridge.h:954-958 | next word answers 1 exactly when a next word exists, that is, from text, 0 exactly when only blanks follow the current word; it moves the temp cursor right onto that word, and otherwise leaves it alone |
| Motion.PrevWordIdx | acsbridge.h:954-959 | previous word lands on the start of a word before the current one, a non-blank cell, and finds nothing if and only if only blanks precede the current word |
| Motion.PrevWord | acsbridge.h:954-959 | previous word answers 1 exactly when a previous word exists, that is, from text, 0 exactly when only blanks precede the current word; it moves the temp cursor left onto a non-blank word start, and otherwise leaves it alone |
| Motion.NextPrevWordIdx | acsbridge.h:954-959 | from a non-blank cell, the previous word of the next word is the start of the cell's own word |
| Motion.PrevNextWordIdx | acsbridge.h:954-959 | from a non-blank cell, the next word of the previous word is the start of the cell's own word |
| Motion.NextPrevWord | acsbridge.h:954-959 | on a non-blank cell, next word then previous word both succeed and land where start of word would |
| Motion.PrevNextWord | acsbridge.h:954-959 | on a non-blank cell, previous word then next word both succeed and land where start of word would |
| Motion.BufSearch | acsbridge.h:961-971 | a search succeeds exactly when the pattern occurs, ignoring case, beyond the starting point in the chosen direction; it lands on the nearest occurrence |
| Motion.CommandsOnlyMoveTemp | acsbridge.h:886-891 | every motion command leaves the buffer and reading cursor alone, answers 0 on an empty buffer, and answers 0 or 1 except startline's column |
| Motion.TryMove | acsbridge.h:872-879 | a motion from the reading cursor answers the command's code; on success the reading cursor is synced to where the command left the temp cursor and nothing else changes; on failure nothing changes |
| Motion.SuccessLandsOnText | acsbridge.h:886-891 | a successful motion command leaves the temp cursor on a cell |
| Sentence.FlagsRoundTrip | acsbridge.h:1097-1100 | the four option bits round-trip through the properties argument, which matters only through its low four bits |
| Sentence.ContinuousOffsets | acsbridge.h:989-991 | a continuous read fits the destination with room for the null; its offsets mark word starts in increasing order; blanks are folded and stripped; and its glyphs with their offsets are a prefix of the folded reference reading, so every word start read gets its offset and every run of blanks between glyphs leaves exactly one blank |
| Sentence.ContinuousProgress | acsbridge.h:989-1009 | a continuous read stops only at the end of the buffer, a full destination, or a newline when stop-at-newline is set; it makes progress when it can; it yields nothing from nothing |
| Sentence.ContinuousAllBlank | acsbridge.h:1040-1043 | a buffer of blanks alone reads as an empty string and is consumed whole |
| Sentence.StepKeepsLines | acsbridge.h:993-1009 | with stop-at-newline or newline-as-space, no newline is ever copied, and stop-at-newline never reads past a newline |
| Sentence.ScannedKeepsInv | acsbridge.h:1040-1078 | each step of the read keeps offsets, blank folding and newline handling in shape |
| Sentence.OneWordOffsets | acsbridge.h:985-988 | a one-word read fits the room, is empty exactly when there is no text or no room, and makes progress otherwise |
| Sentence.OneWordIsOneWord | acsbridge.h:985-988 | a one-word read copies one word from the cursor (truncated to the room), or one repeat glyph for a run of marks |
| Sentence.OneWordConsumesBlanks | acsbridge.h:985-988 | past the word it reads, a one-word read consumes only blanks; a word read whole takes every blank after it, so the next read starts on the next word or at the end |
| Sentence.OneWordRepeatCoversRun | acsbridge.h:1031-1038 | the repeat glyph of a one-word read consumes the whole run of marks |
| Sentence.GetSentence | acsbridge.h:974-1091 | acs_getsentence returns at most destlen - 1 glyphs; offsets mark word starts relative to the cursor, with the last entry the cells consumed; empty from an empty buffer or null cursor; progress when there is room; read continuously, glyphs and offsets are a prefix of the folded reference reading of the cells from the cursor |
| Sentence.ReadContinuous | acsbridge.h:989-1047 | the copying loop computes exactly the continuous read, so its result fits, is blank-folded, carries correct offsets, and follows the plain and folded reference readings of the cells it consumed |
| Sentence.ContinuousContent | acsbridge.h:1040-1047 | with blanks set aside, a continuous read holds exactly the downshifted and repeat-compressed glyphs of the cells it consumed, in order, and the reading of the whole buffer continues with the cells it left |
| Sentence.StepReading | acsbridge.h:1040-1047 | each step of the read moves its glyph, if any, from the cells ahead into the text; blanks and stopping newlines add nothing else |
| Sentence.GetSentenceContent | acsbridge.h:1040-1047 | read continuously, acs_getsentence copies exactly the folded reference reading of the cells it consumes, offsets included: glyphs downshifted, runs of marks compressed, each run of blanks between glyphs one blank, none at the ends |
| Sentence.ContinuousFolded | acsbridge.h:1040-1063 | a continuous read, glyphs paired with offsets, is the folded reference reading of the cells it consumed, and a prefix of that of all the cells; all of it when every cell was consumed |
| Sentence.StepFolded | acsbridge.h:1040-1043 | each step of the read moves its glyph and offset from the reference reading ahead into the text; the first blank of a run is the one blank the reference puts before the next glyph |
| Sentence.ContinuousMarksEveryWord | acsbridge.h:1062-1065 | every cell past the cursor's where a word or symbol begins, once consumed, is the offset entry of the glyph read from it |
| Sentence.TwoWordsRead | acsbridge.h:1040-1063 | "a b" reads as a, one blank, b, with offsets 0, 0, 2 and 3 cells consumed |
| Speech.Marked | acsbridge.h:1308-1311 | the marked indices are exactly the nonzero offset entries of the text, in ascending order |
| Speech.SayStringImarks | acsbridge.h:1308-1341 | a marked send gives ids firstmark, firstmark+1, ... to the marked words in order; a send whose ids would pass 99 is refused; a send without markers changes nothing |
| Speech.StillTalking | acsbridge.h:1253-1259 | the unit is still talking exactly while some marker, an id in 0..99 sent with a sentence, has not come back; a generic synthesizer, without markers, never is |
| Speech.UnmarkedSendIsSpokenAtOnce | acsbridge.h:1236-1253 | a send with no markers (or a generic synthesizer) leaves the unit not talking |
| Speech.SayString | acsbridge.h:1236-1253 | a snippet without markers does not change the talking state |
| Speech.OnMarker | acsbridge.h:1228-1234 | a returning marker retires itself and every earlier id and moves the reading cursor to its word, or nulls it if the word left the buffer; the text, marks, mode, visual cursor and last id sent are unchanged; a marker not outstanding changes nothing |
| Speech.MarkersDrain | acsbridge.h:1255-1258 | after the first i of count markers have come back, exactly the rest are outstanding |
| Speech.TalkingConverges | acsbridge.h:1255-1258 | after a marked send the unit is still talking until its last marker is back, and not after |
| Speech.LastMarkerEndsTalking | acsbridge.h:1255-1258 | hearing the last marker sent ends the talking |
| Speech.MarkerMovesCursor | acsbridge.h:1314-1329 | the k-th marker of a send puts the reading cursor at the k-th marked offset from the cursor the text was read from |
| Speech.MarkerInRange | acsbridge.h:1229-1234 | any of count outstanding markers, coming back first, moves the cursor to its word and leaves the rest talking |
| Speech.MarkerLandsOnWord | acsbridge.h:1064-1070 | a sentence read by acs_getsentence and sent with markers keeps the reading cursor on word starts inside the buffer |
| Speech.MarkedStartsWord | acsbridge.h:1062-1066 | every offset a marked send uses is the start of a word among the cells consumed |
| Speech.Shutup | acsbridge.h:1343-1350 | ss_shutup drops every outstanding marker, so the unit is no longer talking |
| Speech.MarkerAfterShutupIgnored | acsbridge.h:1344-1347 | a marker arriving after a shutup changes neither the state nor the cursor |
| Speech.StaleMarkerIgnored | acsbridge.h:1229-1234 | the same marker heard twice has no further effect |
| Levels.SetLevel | acsbridge.h:1353-1367 | a level setter answers 0 and sets the level within 0..9, -1 off the scale, -2 if the synthesizer cannot change it; on failure nothing changes |
| Levels.Inc | acsbridge.h:1360-1367 | a step up raises the level by one, answers -1 at 9, or -2 when the synthesizer cannot change levels; the other levels and the voice are unchanged, and every refusal changes nothing |
| Levels.Dec | acsbridge.h:1360-1367 | a step down lowers the level by one, answers -1 at 0, or -2 when the synthesizer cannot change levels; the other levels and the voice are unchanged, and every refusal changes nothing |
| Levels.IncDecInverse | acsbridge.h:1360-1364 | a successful step up is undone by a step down, and conversely |
| Levels.StepsClimbTheScale | acsbridge.h:1360-1367 | nine steps up from 0 reach 9, and the next is refused with -1 |
| Levels.SetVoice | acsbridge.h:1370-1371 | a voice not offered is refused with -2 and nothing changes; otherwise the voice is set |
| Levels.SetVoiceIdempotent | acsbridge.h:1370-1371 | setting a voice twice is the same as setting it once |
| Events.ToMask | acsbridge.h:1158-1166 | the wait result has bit 1 for the device, 2 for the synthesizer, 4 for the fifo |
| Events.MaskRoundTrip | acsbridge.h:1158-1166 | readiness records and bitmasks correspond one to one |

## Left out

- Device, serial port, socket and pipe I/O, and errno handling: these are OS calls.
- Sounds and tones: they drive hardware.
- Key capture, key bindings, macros and configuration parsing: they are driver ioctls and config plumbing.
- The select loop behind `acs_ss_wait`, `acs_events`, `ss_events` and the fifo: blocking I/O. Only the readiness bitmask is modelled.
- The bytes of each synthesizer style: markers, interrupt, completion signal and level commands. The header does not give them; the style is an enumeration.
- Screen attributes and the post-processing of control characters and ANSI escapes. The model assumes the log is already clean: no null cells, and blank means the space character.
- The log capacity is a parameter. It is `TTYLOGSIZE2` from `acsint.h`, which is not part of this model.
- The way the screen snapshot is refreshed, and moving back from screen mode to line mode: the kernel driver decides those.
- `ss_startvalues`, the punctuation-pronunciation and dictionary tables, and `acs_smartreplace`.
- The expansion of a high unicode into words by the pronunciation tables: each cell downshifts to one byte or one repeat glyph.
- The byte format of the repeat token ("dash length 20"): the header leaves it to the punctuation table, so the glyph carries the byte and the count.
- The return value of `acs_getsentence` and the missing-offsets-array case: the header does not specify them.
- Sentence.GetSentence: offsets are unbounded naturals rather than `unsigned short`. The header argues the tty log is below 64K, so they cannot wrap.
- The index-marker callback `imark_h` and the per-style still-talking mechanics other than markers: handler plumbing and hardware status lines.
- Speech.SayString: a burst of unmarked snippets can queue speech on the synthesizer that still-talking does not see. The header documents this limitation, and the model keeps it.

=== FILE: buffer.dfy ===
/** The reading buffer of one console: a window of cells over an ever-growing
    stream of tty output (line mode) or a snapshot of the screen (screen
    mode), with a reading cursor, a visual cursor and thirty bookmarks.

    Positions are logical: the n-th cell ever logged has position n, so the
    window is [Start(), End()) and a reference outside it is lost. */
module ReadingBuffer {
  import opened Wrappers
  import opened Chars

  const NumBufMarks: nat := 30

  datatype Mode = ScreenMode | LineMode

  datatype Buffer = Buffer(
    mode: Mode,
    base: int,
    cells: seq<Unicode>,
    cursor: Option<int>,
    vCursor: Option<int>,
    marks: seq<Option<int>>)
  {
    function Start(): int {
      base
    }

    function End(): int {
      base + |cells|
    }

    predicate InWindow(p: int) {
      Start() <= p < End()
    }

    /** The cell at position p. */
    function At(p: int): Unicode
      requires InWindow(p)
    {
      cells[p - base]
    }

    /** A reference is null or points into the window. */
    predicate RefOk(r: Option<int>) {
      r.None? || InWindow(r.value)
    }
  }

  /** The buffer is empty when no cell lies in its window. */
  predicate IsEmpty(b: Buffer) {
    |b.cells| == 0
  }

  /** The shape every operation keeps: thirty marks; no null character in
      the text; every reference null or inside the window; a screen is never
      empty; the visual cursor exists only in screen mode. */
  predicate Valid(b: Buffer) {
    && |b.marks| == NumBufMarks
    && 0 !in b.cells
    && b.RefOk(b.cursor)
    && b.RefOk(b.vCursor)
    && (forall k :: 0 <= k < |b.marks| ==> b.RefOk(b.marks[k]))
    && (b.mode == ScreenMode ==> |b.cells| > 0)
    && (b.mode == LineMode ==> b.vCursor.None?)
  }

  /** The line-mode buffer before the console has produced any output. */
  function NewLineBuffer(base: int): (b: Buffer)
    ensures Valid(b) && IsEmpty(b) && b.Start() == b.End() == base
    ensures b.mode == LineMode && b.cursor.None?
  {
    Buffer(LineMode, base, [], None, None, seq(NumBufMarks, _ => None))
  }

  /** Emptiness is exactly start == end. */
  lemma EmptyIffStartIsEnd(b: Buffer)
    ensures IsEmpty(b) <==> b.Start() == b.End()
  {
  }

  /** A valid screen-mode buffer always has cells. */
  lemma ScreenNeverEmpty(b: Buffer)
    requires Valid(b) && b.mode == ScreenMode
    ensures !IsEmpty(b)
    ensures b.Start() < b.End()
  {
  }

  /** The reference after the window has moved to start at newStart: lost if
      it pointed before it, otherwise the same position. */
  function Survive(r: Option<int>, newStart: int): (r': Option<int>)
    ensures r.None? ==> r'.None?
    ensures r.Some? && r.value < newStart ==> r'.None?
    ensures r.Some? && r.value >= newStart ==> r' == r
  {
    if r.Some? && r.value < newStart then None else r
  }

  /** Line mode: new tty output is logged at the end of the window; once more
      than capacity cells are held, the oldest fall off the back and every
      reference into them becomes null. */
  function Append(b: Buffer, more: seq<Unicode>, capacity: nat): (b': Buffer)
    requires Valid(b) && b.mode == LineMode
    requires 0 < capacity && |b.cells| <= capacity
    requires 0 !in more
    ensures Valid(b') && b'.mode == LineMode
    ensures b'.End() == b.End() + |more|
    ensures |b'.cells| == if |b.cells| + |more| <= capacity then |b.cells| + |more| else capacity
    ensures b'.Start() >= b.Start()
    ensures forall p :: b'.InWindow(p) && p < b.End() ==> b.InWindow(p) && b'.At(p) == b.At(p)
    ensures forall p :: b'.InWindow(p) && p >= b.End() ==> b'.At(p) == more[p - b.End()]
    ensures b'.cursor == Survive(b.cursor, b'.Start())
    ensures forall k :: 0 <= k < NumBufMarks ==> b'.marks[k] == Survive(b.marks[k], b'.Start())
  {
    var all := b.cells + more;
    var drop := if |all| <= capacity then 0 else |all| - capacity;
    var start := b.base + drop;
    var b' := Buffer(LineMode, start, all[drop..],
      Survive(b.cursor, start), None,
      seq(NumBufMarks, k requires 0 <= k < NumBufMarks => Survive(b.marks[k], start)));
    assert forall p :: b'.InWindow(p) && p < b.End() ==> b'.At(p) == all[p - b.base];
    b'
  }

  /** Every reference that survives an append still denotes the same text. */
  lemma EvictionSafety(b: Buffer, more: seq<Unicode>, capacity: nat, k: nat)
    requires Valid(b) && b.mode == LineMode
    requires 0 < capacity && |b.cells| <= capacity
    requires 0 !in more
    requires k < NumBufMarks
    ensures var b' := Append(b, more, capacity);
      && (b.marks[k].Some? && b'.marks[k].Some? ==> b'.At(b'.marks[k].value) == b.At(b.marks[k].value))
      && (b.cursor.Some? && b'.cursor.Some? ==> b'.At(b'.cursor.value) == b.At(b.cursor.value))
      && (b.marks[k].Some? ==> (b'.marks[k].None? <==> b.marks[k].value < b'.Start()))
  {
  }

  /** A run of tty output arriving chunk by chunk. */
  function AppendAll(b: Buffer, chunks: seq<seq<Unicode>>, capacity: nat): (b': Buffer)
    requires Valid(b) && b.mode == LineMode
    requires 0 < capacity && |b.cells| <= capacity
    requires forall i :: 0 <= i < |chunks| ==> 0 !in chunks[i]
    ensures Valid(b') && b'.mode == LineMode && |b'.cells| <= capacity
    ensures b'.Start() >= b.Start() && b'.End() >= b.End()
    decreases |chunks|
  {
    if |chunks| == 0 then b else AppendAll(Append(b, chunks[0], capacity), chunks[1..], capacity)
  }

  /** Losing a reference to a later start subsumes losing it to an earlier
      one. */
  lemma SurviveTwice(r: Option<int>, s1: int, s2: int)
    requires s1 <= s2
    ensures Survive(Survive(r, s1), s2) == Survive(r, s2)
  {
  }

  /** Eviction safety over any sequence of appends: a reference is lost
      exactly when its position fell off the back of the window, and every
      position still in the window holds the text it held before. */
  lemma {:induction false} RepeatedEviction(b: Buffer, chunks: seq<seq<Unicode>>, capacity: nat)
    requires Valid(b) && b.mode == LineMode
    requires 0 < capacity && |b.cells| <= capacity
    requires forall i :: 0 <= i < |chunks| ==> 0 !in chunks[i]
    ensures var b' := AppendAll(b, chunks, capacity);
      && b'.cursor == Survive(b.cursor, b'.Start())
      && (forall k :: 0 <= k < NumBufMarks ==> b'.marks[k] == Survive(b.marks[k], b'.Start()))
      && (forall p :: b'.InWindow(p) && p < b.End() ==> b.InWindow(p) && b'.At(p) == b.At(p))
    decreases |chunks|
  {
    if |chunks| > 0 {
      var b1 := Append(b, chunks[0], capacity);
      RepeatedEviction(b1, chunks[1..], capacity);
      var b' := AppendAll(b1, chunks[1..], capacity);
      SurviveTwice(b.cursor, b1.Start(), b'.Start());
      forall k | 0 <= k < NumBufMarks
        ensures b'.marks[k] == Survive(b.marks[k], b'.Start())
      {
        SurviveTwice(b.marks[k], b1.Start(), b'.Start());
      }
    }
  }

  /** acs_clearbuf: in line mode the log is emptied and every reference is
      lost; a screen is left as it is. */
  function Clear(b: Buffer): (b': Buffer)
    requires Valid(b)
    ensures Valid(b') && b'.mode == b.mode
    ensures b.mode == LineMode ==> IsEmpty(b') && b'.Start() == b.End()
    ensures b.mode == LineMode ==> b'.cursor.None? && forall k :: 0 <= k < NumBufMarks ==> b'.marks[k].None?
    ensures b.mode == ScreenMode ==> b' == b
  {
    if b.mode == ScreenMode then b else NewLineBuffer(b.End())
  }

  /** Switch to screen mode: the buffer becomes a snapshot of the screen,
      the reading cursor starts on the visual cursor and no mark is set. */
  function ToScreenMode(base: int, screen: seq<Unicode>, vPos: nat): (b: Buffer)
    requires vPos < |screen|
    requires 0 !in screen
    ensures Valid(b) && b.mode == ScreenMode && !IsEmpty(b)
    ensures b.cursor == b.vCursor == Some(base + vPos) && b.At(base + vPos) == screen[vPos]
    ensures forall k :: 0 <= k < NumBufMarks ==> b.marks[k].None?
  {
    Buffer(ScreenMode, base, screen, Some(base + vPos), Some(base + vPos), seq(NumBufMarks, _ => None))
  }

  /** Set bookmark k at the reading cursor; nothing else moves. */
  function SetMark(b: Buffer, k: nat): (b': Buffer)
    requires Valid(b) && k < NumBufMarks
    ensures Valid(b')
    ensures b'.marks[k] == b.cursor
    ensures forall j :: 0 <= j < NumBufMarks && j != k ==> b'.marks[j] == b.marks[j]
    ensures b'.cells == b.cells && b'.base == b.base && b'.cursor == b.cursor
    ensures b'.mode == b.mode && b'.vCursor == b.vCursor
  {
    b.(marks := b.marks[k := b.cursor])
  }

  /** acs_getc: the downshifted character under the reading cursor, or the
      null byte when there is none. */
  function GetChar(b: Buffer, equiv: Equivalences): (c: Byte)
    requires Valid(b)
    ensures IsEmpty(b) ==> c == 0
    ensures b.cursor.None? ==> c == 0
    ensures b.cursor.Some? ==> c == Downshift(equiv, b.At(b.cursor.value))
    ensures b.cursor.Some? && b.At(b.cursor.value) < 256 ==> c == b.At(b.cursor.value)
    ensures EquivalencesOk(equiv) && b.cursor.Some? ==> c != 0
  {
    if b.cursor.None? then 0 else Downshift(equiv, b.At(b.cursor.value))
  }
}

=== FILE: chars.dfy ===
/** Code points, the host locale, the downshift to 8 bits, and the word rule
    shared by cursor motion and sentence extraction. */
module Chars {

  /** A cell of the reading buffer: a 4-byte unicode. */
  type Unicode = c: int | 0 <= c < 0x1_0000_0000

  /** One byte of 8-bit (iso8859-1) output. */
  type Byte = b: int | 0 <= b < 256

  const NL: Unicode := 10
  const SPACE: Unicode := 32
  const APOSTROPHE: Unicode := 39
  const QUESTION: Byte := 63

  /** The locale facility of the host: which code points are letters, and
      how a code point folds to lower case. Both are supplied by setlocale(3)
      in the system, so they are parameters here. */
  datatype Locale = Locale(isAlpha: Unicode -> bool, toLower: Unicode -> Unicode)

  /** Every locale classifies ascii as the C locale does: only A-Z and a-z
      are letters. */
  predicate LocaleOk(loc: Locale) {
    forall c: Unicode :: c < 128 ==> (loc.isAlpha(c) <==> (65 <= c <= 90 || 97 <= c <= 122))
  }

  predicate IsDigit(c: Unicode) {
    48 <= c <= 57
  }

  predicate IsAlnum(loc: Locale, c: Unicode) {
    loc.isAlpha(c) || IsDigit(c)
  }

  /** A blank: the only space character left in the tty log once control
      characters other than bell, cr and lf have been stripped. */
  predicate IsBlank(c: Unicode) {
    c == SPACE
  }

  /** A printable mark that is neither a letter, a digit nor a space. */
  predicate IsPunct(loc: Locale, c: Unicode) {
    c > SPACE && c != 127 && !(128 <= c < 160) && !IsAlnum(loc, c)
  }

  /** The registered equivalences for high unicodes (curly apostrophe to
      apostrophe, long dash to dash, ...). They map to printable ascii
      symbols only. */
  type Equivalences = map<Unicode, Byte>

  predicate EquivalencesOk(equiv: Equivalences) {
    forall c | c in equiv :: 33 <= equiv[c] <= 126
  }

  /** Downshift a unicode to iso8859-1: latin-1 passes through, a registered
      equivalence is substituted, anything else becomes a question mark. */
  function Downshift(equiv: Equivalences, c: Unicode): (b: Byte)
    ensures c < 256 ==> b == c
    ensures 256 <= c && c in equiv ==> b == equiv[c]
    ensures 256 <= c && c !in equiv ==> b == QUESTION
    ensures EquivalencesOk(equiv) && b == SPACE as Byte ==> c == SPACE
    ensures EquivalencesOk(equiv) && b == NL as Byte ==> c == NL
  {
    if c < 256 then c
    else if c in equiv then equiv[c]
    else QUESTION
  }

  /** Number of cells equal to s[i] in the run that starts at i. */
  function RunAhead(s: seq<Unicode>, i: nat): (n: nat)
    requires i < |s|
    ensures 1 <= n <= |s| - i
    ensures forall k :: i <= k < i + n ==> s[k] == s[i]
    ensures i + n == |s| || s[i + n] != s[i]
    decreases |s| - i
  {
    if i + 1 < |s| && s[i + 1] == s[i] then 1 + RunAhead(s, i + 1) else 1
  }

  /** Number of cells equal to s[i] in the run that ends at i. */
  function RunBack(s: seq<Unicode>, i: nat): (n: nat)
    requires i < |s|
    ensures 1 <= n <= i + 1
    ensures forall k :: i - n < k <= i ==> s[k] == s[i]
    ensures n == i + 1 || s[i - n] != s[i]
  {
    if i > 0 && s[i - 1] == s[i] then 1 + RunBack(s, i - 1) else 1
  }

  /** Length of the maximal run of identical cells through position i. */
  function RunLength(s: seq<Unicode>, i: nat): nat
    requires i < |s|
  {
    RunBack(s, i) + RunAhead(s, i) - 1
  }

  /** Cells i and i+1 belong to the same word. A word is a run of letters and
      digits, tolerating one apostrophe between two letters, or a run of five
      or more identical punctuation marks. Everything else (a space, a
      newline, a lone punctuation mark, a run of four dashes) is a word of
      its own. */
  predicate Glued(loc: Locale, s: seq<Unicode>, i: nat)
    requires i + 1 < |s|
  {
    || (IsAlnum(loc, s[i]) && IsAlnum(loc, s[i + 1]))
    || (s[i + 1] == APOSTROPHE && loc.isAlpha(s[i]) && i + 2 < |s| && loc.isAlpha(s[i + 2]))
    || (s[i] == APOSTROPHE && i >= 1 && loc.isAlpha(s[i - 1]) && loc.isAlpha(s[i + 1]))
    || (IsPunct(loc, s[i]) && s[i + 1] == s[i] && RunLength(s, i) >= 5)
  }

  /** A word begins at i. */
  predicate WordBegins(loc: Locale, s: seq<Unicode>, i: nat)
    requires i < |s|
  {
    i == 0 || !Glued(loc, s, i - 1)
  }

  /** The first cell of the word containing i. */
  function WordStart(loc: Locale, s: seq<Unicode>, i: nat): (j: nat)
    requires i < |s|
    ensures j <= i
    ensures WordBegins(loc, s, j)
    ensures forall k :: j <= k < i ==> Glued(loc, s, k)
  {
    if i > 0 && Glued(loc, s, i - 1) then WordStart(loc, s, i - 1) else i
  }

  /** The last cell of the word containing i. */
  function WordEnd(loc: Locale, s: seq<Unicode>, i: nat): (j: nat)
    requires i < |s|
    ensures i <= j < |s|
    ensures j == |s| - 1 || !Glued(loc, s, j)
    ensures forall k :: i <= k < j ==> Glued(loc, s, k)
    decreases |s| - i
  {
    if i + 1 < |s| && Glued(loc, s, i) then WordEnd(loc, s, i + 1) else i
  }

  /** Any cells of a constant stretch lie inside the runs through them. */
  lemma {:induction false} RunCovers(s: seq<Unicode>, a: nat, n: nat, i: nat)
    requires a <= i < a + n <= |s|
    requires forall k :: a <= k < a + n ==> s[k] == s[a]
    ensures RunAhead(s, i) >= a + n - i
    ensures RunBack(s, i) >= i - a + 1
  {
    RunAheadCovers(s, a, n, i);
    RunBackCovers(s, a, n, i);
  }

  lemma {:induction false} RunAheadCovers(s: seq<Unicode>, a: nat, n: nat, i: nat)
    requires a <= i < a + n <= |s|
    requires forall k :: a <= k < a + n ==> s[k] == s[a]
    ensures RunAhead(s, i) >= a + n - i
    decreases a + n - i
  {
    if i + 1 < a + n {
      RunAheadCovers(s, a, n, i + 1);
    }
  }

  lemma {:induction false} RunBackCovers(s: seq<Unicode>, a: nat, n: nat, i: nat)
    requires a <= i < a + n <= |s|
    requires forall k :: a <= k < a + n ==> s[k] == s[a]
    ensures RunBack(s, i) >= i - a + 1
    decreases i - a
  {
    if i > a {
      RunBackCovers(s, a, n, i - 1);
    }
  }

  /** Five or more identical punctuation marks in a row form one word. */
  lemma RepeatRunIsOneWord(loc: Locale, s: seq<Unicode>, a: nat, n: nat)
    requires a + n <= |s| && n >= 5
    requires forall k :: a <= k < a + n ==> s[k] == s[a]
    requires IsPunct(loc, s[a])
    ensures forall i :: a <= i < a + n - 1 ==> Glued(loc, s, i)
    ensures WordEnd(loc, s, a) >= a + n - 1
  {
    forall i | a <= i < a + n - 1
      ensures Glued(loc, s, i)
    {
      RunCovers(s, a, n, i);
    }
    WordEndReaches(loc, s, a, a + n - 1);
  }

  /** Scanning forward from i crosses every glue up to j. */
  lemma {:induction false} WordEndReaches(loc: Locale, s: seq<Unicode>, i: nat, j: nat)
    requires i <= j < |s|
    requires forall k :: i <= k < j ==> Glued(loc, s, k)
    ensures WordEnd(loc, s, i) >= j
    decreases j - i
  {
    if i < j {
      WordEndReaches(loc, s, i + 1, j);
    }
  }

  /** Exactly four identical punctuation marks are four separate words. */
  lemma FourMarksAreFourWords(loc: Locale, s: seq<Unicode>, a: nat)
    requires a + 4 <= |s|
    requires forall k :: a <= k < a + 4 ==> s[k] == s[a]
    requires IsPunct(loc, s[a])
    requires a == 0 || s[a - 1] != s[a]
    requires a + 4 == |s| || s[a + 4] != s[a]
    ensures forall i :: a <= i < a + 4 ==> WordBegins(loc, s, i) && WordEnd(loc, s, i) == i
  {
    forall i | a <= i < a + 3
      ensures !Glued(loc, s, i)
    {
      assert RunAhead(s, i) == a + 4 - i;
      assert RunBack(s, i) == i - a + 1;
    }
    if a > 0 {
      assert !Glued(loc, s, a - 1) by {
        assert !IsAlnum(loc, s[a]) && !loc.isAlpha(s[a + 1]);
      }
    }
    if a + 4 < |s| {
      assert !Glued(loc, s, a + 3) by {
        assert !IsAlnum(loc, s[a + 3]) && !loc.isAlpha(s[a + 2]);
      }
    }
  }

  /** A run of letters and digits is one word: 3g7j6 reads as one. */
  lemma AlnumRunIsOneWord(loc: Locale, s: seq<Unicode>, a: nat, n: nat)
    requires 1 <= n && a + n <= |s|
    requires forall k :: a <= k < a + n ==> IsAlnum(loc, s[k])
    ensures forall i :: a <= i < a + n - 1 ==> Glued(loc, s, i)
    ensures WordEnd(loc, s, a) >= a + n - 1
    ensures WordStart(loc, s, a + n - 1) <= a
  {
    WordEndReaches(loc, s, a, a + n - 1);
    GluedShareStart(loc, s, a, a + n - 1);
  }

  /** One apostrophe between two letters joins them into one word, as in
      don't. */
  lemma ApostropheBetweenLetters(loc: Locale, s: seq<Unicode>, i: nat)
    requires i + 2 < |s|
    requires loc.isAlpha(s[i]) && s[i + 1] == APOSTROPHE && loc.isAlpha(s[i + 2])
    ensures Glued(loc, s, i) && Glued(loc, s, i + 1)
    ensures WordEnd(loc, s, i) >= i + 2 && WordStart(loc, s, i + 2) == WordStart(loc, s, i)
  {
    WordEndReaches(loc, s, i, i + 2);
    GluedShareStart(loc, s, i, i + 2);
  }

  /** An apostrophe not followed by a letter does not join the word before
      it; so a second apostrophe in a row ends the word. */
  lemma LoneApostropheSeparates(loc: Locale, s: seq<Unicode>, i: nat)
    requires LocaleOk(loc)
    requires i + 1 < |s| && s[i + 1] == APOSTROPHE && s[i] != APOSTROPHE
    requires i + 2 == |s| || !loc.isAlpha(s[i + 2])
    ensures !Glued(loc, s, i)
    ensures WordEnd(loc, s, i) == i
  {
    assert !loc.isAlpha(APOSTROPHE);
  }

  /** Cells joined by glue share their word's first cell. */
  lemma {:induction false} GluedShareStart(loc: Locale, s: seq<Unicode>, a: nat, b: nat)
    requires a <= b < |s|
    requires forall k :: a <= k < b ==> Glued(loc, s, k)
    ensures WordStart(loc, s, b) == WordStart(loc, s, a)
    decreases b - a
  {
    if a < b {
      GluedShareStart(loc, s, a, b - 1);
    }
  }

  /** Cells joined by glue share their word's last cell. */
  lemma {:induction false} GluedShareEnd(loc: Locale, s: seq<Unicode>, a: nat, b: nat)
    requires a <= b < |s|
    requires forall k :: a <= k < b ==> Glued(loc, s, k)
    ensures WordEnd(loc, s, a) == WordEnd(loc, s, b)
    decreases b - a
  {
    if a < b {
      GluedShareEnd(loc, s, a + 1, b);
    }
  }

  /** Start and end of word agree on which word a cell is in: from either
      end of a word, the other end is the same as from the cell itself. */
  lemma SameWord(loc: Locale, s: seq<Unicode>, i: nat)
    requires i < |s|
    ensures WordStart(loc, s, WordEnd(loc, s, i)) == WordStart(loc, s, i)
    ensures WordEnd(loc, s, WordStart(loc, s, i)) == WordEnd(loc, s, i)
  {
    GluedShareStart(loc, s, i, WordEnd(loc, s, i));
    GluedShareEnd(loc, s, WordStart(loc, s, i), i);
  }
}

=== FILE: events.dfy ===
/** What acs_ss_wait reports when it wakes up: which of the three sources
    (the acsint device, the synthesizer, the fifo) has input, one bit each. */
module Events {

  const KernelBit: int := 1
  const SynthBit: int := 2
  const FifoBit: int := 4

  datatype Ready = Ready(kernel: bool, synth: bool, fifo: bool)

  /** The readiness bitmask. */
  function ToMask(r: Ready): (m: int)
    ensures 0 <= m < 8
    ensures r.kernel <==> m % 2 == 1
    ensures r.synth <==> (m / 2) % 2 == 1
    ensures r.fifo <==> m / 4 == 1
  {
    (if r.kernel then KernelBit else 0) + (if r.synth then SynthBit else 0) + (if r.fifo then FifoBit else 0)
  }

  /** The sources a bitmask names. */
  function FromMask(m: int): (r: Ready)
    requires 0 <= m < 8
  {
    Ready(m % 2 == 1, (m / 2) % 2 == 1, m / 4 == 1)
  }

  /** Masks and readiness records correspond one to one. */
  lemma MaskRoundTrip(r: Ready, m: int)
    requires 0 <= m < 8
    ensures FromMask(ToMask(r)) == r
    ensures ToMask(FromMask(m)) == m
  {
  }
}

=== FILE: levels.dfy ===
/** The speech knobs: volume, pitch and speed on a scale of 0 to 9, set
    directly or stepped by one, and the voice. Every setter answers 0 on
    success, -1 for a level off the scale, or -2 when the synthesizer cannot
    make the change; on any failure nothing changes. */
module Levels {

  datatype Knob = Volume | Pitch | Speed

  const MinLevel: int := 0
  const MaxLevel: int := 9

  const Ok: int := 0
  const OutOfRange: int := -1
  const Unsupported: int := -2

  /** The current settings (ss_curvolume, ss_curpitch, ss_curspeed,
      ss_curvoice) and what the synthesizer offers: whether its levels can be
      changed at all, and which voices it has. */
  datatype Synth = Synth(volume: int, pitch: int, speed: int, voice: int, adjustable: bool, voices: set<int>)

  function Level(s: Synth, k: Knob): int {
    match k
    case Volume => s.volume
    case Pitch => s.pitch
    case Speed => s.speed
  }

  /** Every level on the scale. */
  predicate LevelsOk(s: Synth) {
    forall k: Knob :: MinLevel <= Level(s, k) <= MaxLevel
  }

  /** The answer of a setter and the settings after it. */
  datatype Outcome = Outcome(code: int, synth: Synth)

  /** ss_setvolume, ss_setpitch, ss_setspeed. */
  function SetLevel(s: Synth, k: Knob, level: int): (o: Outcome)
    ensures o.code == Ok || o.code == OutOfRange || o.code == Unsupported
    ensures o.code == Unsupported <==> !s.adjustable
    ensures o.code == OutOfRange <==> s.adjustable && !(MinLevel <= level <= MaxLevel)
    ensures o.code == Ok ==> Level(o.synth, k) == level
    ensures forall j: Knob :: j != k ==> Level(o.synth, j) == Level(s, j)
    ensures o.code != Ok ==> o.synth == s
    ensures o.synth.voice == s.voice && o.synth.adjustable == s.adjustable && o.synth.voices == s.voices
    ensures LevelsOk(s) ==> LevelsOk(o.synth)
  {
    if !s.adjustable then Outcome(Unsupported, s)
    else if level < MinLevel || level > MaxLevel then Outcome(OutOfRange, s)
    else
      match k
      case Volume => Outcome(Ok, s.(volume := level))
      case Pitch => Outcome(Ok, s.(pitch := level))
      case Speed => Outcome(Ok, s.(speed := level))
  }

  /** ss_incvolume, ss_incpitch, ss_incspeed. */
  function Inc(s: Synth, k: Knob): (o: Outcome)
    requires LevelsOk(s)
    ensures LevelsOk(o.synth)
    ensures o.code == Ok || o.code == OutOfRange || o.code == Unsupported
    ensures o.code == Unsupported <==> !s.adjustable
    ensures o.code == Ok <==> s.adjustable && Level(s, k) < MaxLevel
    ensures o.code == OutOfRange <==> s.adjustable && Level(s, k) == MaxLevel
    ensures o.code == Ok ==> Level(o.synth, k) == Level(s, k) + 1
    ensures forall j: Knob :: j != k ==> Level(o.synth, j) == Level(s, j)
    ensures o.synth.voice == s.voice && o.synth.adjustable == s.adjustable && o.synth.voices == s.voices
    ensures o.code != Ok ==> o.synth == s
  {
    SetLevel(s, k, Level(s, k) + 1)
  }

  /** ss_decvolume, ss_decpitch, ss_decspeed. */
  function Dec(s: Synth, k: Knob): (o: Outcome)
    requires LevelsOk(s)
    ensures LevelsOk(o.synth)
    ensures o.code == Ok || o.code == OutOfRange || o.code == Unsupported
    ensures o.code == Unsupported <==> !s.adjustable
    ensures o.code == Ok <==> s.adjustable && Level(s, k) > MinLevel
    ensures o.code == OutOfRange <==> s.adjustable && Level(s, k) == MinLevel
    ensures o.code == Ok ==> Level(o.synth, k) == Level(s, k) - 1
    ensures forall j: Knob :: j != k ==> Level(o.synth, j) == Level(s, j)
    ensures o.synth.voice == s.voice && o.synth.adjustable == s.adjustable && o.synth.voices == s.voices
    ensures o.code != Ok ==> o.synth == s
  {
    SetLevel(s, k, Level(s, k) - 1)
  }

  /** A step up undone by a step down gives back the same settings, and the
      other way round. */
  lemma IncDecInverse(s: Synth, k: Knob)
    requires LevelsOk(s)
    ensures Inc(s, k).code == Ok ==> Dec(Inc(s, k).synth, k) == Outcome(Ok, s)
    ensures Dec(s, k).code == Ok ==> Inc(Dec(s, k).synth, k) == Outcome(Ok, s)
  {
  }

  /** Stepping up n times from the bottom of the scale reaches level n, and
      one more step past the top is refused. */
  lemma {:induction false} StepsClimbTheScale(s: Synth, k: Knob, n: nat)
    requires LevelsOk(s) && s.adjustable && Level(s, k) == MinLevel
    requires n <= MaxLevel - MinLevel
    ensures LevelsOk(Climb(s, k, n)) && Level(Climb(s, k, n), k) == MinLevel + n
    ensures n == MaxLevel - MinLevel ==> Inc(Climb(s, k, n), k) == Outcome(OutOfRange, Climb(s, k, n))
  {
    if n > 0 {
      StepsClimbTheScale(s, k, n - 1);
    }
  }

  /** The settings after n steps up. */
  function Climb(s: Synth, k: Knob, n: nat): (s': Synth)
    requires LevelsOk(s)
    ensures LevelsOk(s') && s'.adjustable == s.adjustable
  {
    if n == 0 then s else Inc(Climb(s, k, n - 1), k).synth
  }

  /** ss_setvoice: a voice the synthesizer does not offer is refused with
      -2. */
  function SetVoice(s: Synth, voice: int): (o: Outcome)
    ensures o.code == Ok || o.code == Unsupported
    ensures o.code == Ok <==> voice in s.voices
    ensures o.code == Ok ==> o.synth.voice == voice
    ensures o.synth.volume == s.volume && o.synth.pitch == s.pitch && o.synth.speed == s.speed
    ensures o.code != Ok ==> o.synth == s
  {
    if voice in s.voices then Outcome(Ok, s.(voice := voice)) else Outcome(Unsupported, s)
  }

  /** Setting a voice twice is the same as setting it once. */
  lemma SetVoiceIdempotent(s: Synth, voice: int)
    ensures SetVoice(SetVoice(s, voice).synth, voice) == SetVoice(s, voice)
  {
  }
}

=== FILE: motion.dfy ===
/** Cursor motion. Every command moves a temp cursor, which starts as a copy
    of the reading cursor; the reading cursor changes only when the temp
    cursor is synced back, so a failed command never loses the reading
    position. Commands return 1 for success and 0 for failure, and always 0
    on an empty buffer. */
module Motion {
  import opened Wrappers
  import opened Chars
  import opened ReadingBuffer

  /** The reading buffer together with the temp cursor. */
  datatype Nav = Nav(buf: Buffer, temp: Option<int>)

  /** The return code of a motion command and the state it leaves. */
  datatype Move = Move(code: int, nav: Nav)

  /** The temp cursor is on a cell of the buffer. */
  predicate OnText(n: Nav) {
    n.temp.Some? && n.buf.InWindow(n.temp.value)
  }

  /** Index of the temp cursor within the cells of the window. */
  function Idx(n: Nav): nat
    requires OnText(n)
  {
    n.temp.value - n.buf.base
  }

  /** acs_cursorset: the temp cursor starts at the reading cursor. */
  function CursorSet(n: Nav): (n': Nav)
    ensures n'.buf == n.buf
    ensures n'.temp == n.buf.cursor
  {
    n.(temp := n.buf.cursor)
  }

  /** acs_cursorsync: the reading cursor takes the temp cursor's place. The
      caller must first bring a temp cursor that ran off an edge back into
      the buffer. */
  function CursorSync(n: Nav): (n': Nav)
    requires Valid(n.buf) && n.buf.RefOk(n.temp)
    ensures Valid(n'.buf)
    ensures n'.buf.cursor == n.temp && n'.temp == n.temp
    ensures n'.buf == n.buf.(cursor := n.temp)
  {
    n.(buf := n.buf.(cursor := n.temp))
  }

  /** Setting and syncing with no motion in between changes nothing. */
  lemma SetThenSyncKeepsCursor(n: Nav)
    requires Valid(n.buf)
    ensures CursorSync(CursorSet(n)).buf == n.buf
  {
  }

  /** acs_forward: step the temp cursor one cell on; 0 when it steps off the
      end, where it is left for the caller to bring back. */
  function Forward(n: Nav): (m: Move)
    requires Valid(n.buf)
    ensures m.nav.buf == n.buf
    ensures m.code == 1 <==> OnText(n) && n.buf.InWindow(n.temp.value + 1)
    ensures m.code == 0 || m.code == 1
    ensures OnText(n) ==> m.nav.temp == Some(n.temp.value + 1)
    ensures !OnText(n) ==> m.nav == n
  {
    if !OnText(n) then Move(0, n)
    else
      var t := n.temp.value + 1;
      Move(if n.buf.InWindow(t) then 1 else 0, n.(temp := Some(t)))
  }

  /** acs_back: step the temp cursor one cell back; 0 when it steps off the
      start. */
  function Back(n: Nav): (m: Move)
    requires Valid(n.buf)
    ensures m.nav.buf == n.buf
    ensures m.code == 1 <==> OnText(n) && n.buf.InWindow(n.temp.value - 1)
    ensures m.code == 0 || m.code == 1
    ensures OnText(n) ==> m.nav.temp == Some(n.temp.value - 1)
    ensures !OnText(n) ==> m.nav == n
  {
    if !OnText(n) then Move(0, n)
    else
      var t := n.temp.value - 1;
      Move(if n.buf.InWindow(t) then 1 else 0, n.(temp := Some(t)))
  }

  /** A successful step forward is undone by a step back, and the other way. */
  lemma ForwardBackInverse(n: Nav)
    requires Valid(n.buf)
    ensures Forward(n).code == 1 ==> Back(Forward(n).nav) == Move(1, n)
    ensures Back(n).code == 1 ==> Forward(Back(n).nav) == Move(1, n)
  {
  }

  /** Index of the first cell of the line holding s[i]: just after the
      previous newline, or 0. The newline ending a line belongs to it. */
  function LineStartIdx(s: seq<Unicode>, i: nat): (j: nat)
    requires i < |s|
    ensures j <= i
    ensures j == 0 || s[j - 1] == NL
    ensures forall k :: j <= k < i ==> s[k] != NL
  {
    if i > 0 && s[i - 1] != NL then LineStartIdx(s, i - 1) else i
  }

  /** Index of the last cell of the line holding s[i]: its newline, or the
      last cell of the buffer. */
  function LineEndIdx(s: seq<Unicode>, i: nat): (j: nat)
    requires i < |s|
    ensures i <= j < |s|
    ensures s[j] == NL || j == |s| - 1
    ensures forall k :: i <= k < j ==> s[k] != NL
    decreases |s| - i
  {
    if s[i] != NL && i + 1 < |s| then LineEndIdx(s, i + 1) else i
  }

  /** The start of a line is the only index with its three properties. */
  lemma LineStartUnique(s: seq<Unicode>, i: nat, j: nat)
    requires j <= i < |s|
    requires j == 0 || s[j - 1] == NL
    requires forall k :: j <= k < i ==> s[k] != NL
    ensures LineStartIdx(s, i) == j
  {
  }

  /** The end of a line is the only index with its three properties. */
  lemma LineEndUnique(s: seq<Unicode>, i: nat, j: nat)
    requires i <= j < |s|
    requires s[j] == NL || j == |s| - 1
    requires forall k :: i <= k < j ==> s[k] != NL
    ensures LineEndIdx(s, i) == j
  {
  }

  /** acs_startline: go to the start of the line; the code is the 1-based
      column the temp cursor was in, and 0 only when there is no text. */
  function StartLine(n: Nav): (m: Move)
    requires Valid(n.buf)
    ensures m.nav.buf == n.buf
    ensures m.code >= 1 <==> OnText(n)
    ensures m.code <= 0 ==> m.code == 0 && m.nav == n
    ensures OnText(n) ==> OnText(m.nav) && m.nav.temp.value <= n.temp.value
    ensures OnText(n) ==> m.code == n.temp.value - m.nav.temp.value + 1
    ensures OnText(n) ==> forall p :: m.nav.temp.value <= p < n.temp.value ==> n.buf.At(p) != NL
    ensures OnText(n) ==> m.nav.temp.value == n.buf.Start() || n.buf.At(m.nav.temp.value - 1) == NL
  {
    if !OnText(n) then Move(0, n)
    else
      var j := LineStartIdx(n.buf.cells, Idx(n));
      Move(Idx(n) - j + 1, n.(temp := Some(n.buf.base + j)))
  }

  /** acs_endline: go to the last cell of the line. */
  function EndLine(n: Nav): (m: Move)
    requires Valid(n.buf)
    ensures m.nav.buf == n.buf
    ensures m.code == 1 <==> OnText(n)
    ensures m.code == 0 || m.code == 1
    ensures !OnText(n) ==> m.nav == n
    ensures OnText(n) ==> OnText(m.nav) && n.temp.value <= m.nav.temp.value
    ensures OnText(n) ==> forall p :: n.temp.value <= p < m.nav.temp.value ==> n.buf.At(p) != NL
    ensures OnText(n) ==> n.buf.At(m.nav.temp.value) == NL || m.nav.temp.value == n.buf.End() - 1
  {
    if !OnText(n) then Move(0, n)
    else Move(1, n.(temp := Some(n.buf.base + LineEndIdx(n.buf.cells, Idx(n)))))
  }

  /** acs_startword: go to the first cell of the word under the temp cursor. */
  function StartWord(loc: Locale, n: Nav): (m: Move)
    requires Valid(n.buf)
    ensures m.nav.buf == n.buf
    ensures m.code == 1 <==> OnText(n)
    ensures m.code == 0 || m.code == 1
    ensures !OnText(n) ==> m.nav == n
    ensures OnText(n) ==> OnText(m.nav) && m.nav.temp.value <= n.temp.value
    ensures OnText(n) ==> Idx(m.nav) == WordStart(loc, n.buf.cells, Idx(n))
  {
    if !OnText(n) then Move(0, n)
    else Move(1, n.(temp := Some(n.buf.base + WordStart(loc, n.buf.cells, Idx(n)))))
  }

  /** acs_endword: go to the last cell of the word under the temp cursor. */
  function EndWord(loc: Locale, n: Nav): (m: Move)
    requires Valid(n.buf)
    ensures m.nav.buf == n.buf
    ensures m.code == 1 <==> OnText(n)
    ensures m.code == 0 || m.code == 1
    ensures !OnText(n) ==> m.nav == n
    ensures OnText(n) ==> OnText(m.nav) && n.temp.value <= m.nav.temp.value
    ensures OnText(n) ==> Idx(m.nav) == WordEnd(loc, n.buf.cells, Idx(n))
  {
    if !OnText(n) then Move(0, n)
    else Move(1, n.(temp := Some(n.buf.base + WordEnd(loc, n.buf.cells, Idx(n)))))
  }

  /** Start of word and end of word find the same word: from its last cell
      startword goes where it goes from any other cell of it, and the other
      way round. */
  lemma WordMotionsAgree(loc: Locale, n: Nav)
    requires Valid(n.buf) && OnText(n)
    ensures StartWord(loc, EndWord(loc, n).nav) == StartWord(loc, n)
    ensures EndWord(loc, StartWord(loc, n).nav) == EndWord(loc, n)
  {
    SameWord(loc, n.buf.cells, Idx(n));
  }

  /** acs_startbuf: the temp cursor goes to the first cell. */
  function StartBuf(n: Nav): (n': Nav)
    requires Valid(n.buf)
    ensures n'.buf == n.buf
    ensures !IsEmpty(n.buf) ==> n'.temp == Some(n.buf.Start())
    ensures IsEmpty(n.buf) ==> n' == n
  {
    if IsEmpty(n.buf) then n else n.(temp := Some(n.buf.Start()))
  }

  /** acs_endbuf: the temp cursor goes to the last cell. */
  function EndBuf(n: Nav): (n': Nav)
    requires Valid(n.buf)
    ensures n'.buf == n.buf
    ensures !IsEmpty(n.buf) ==> n'.temp == Some(n.buf.End() - 1)
    ensures IsEmpty(n.buf) ==> n' == n
  {
    if IsEmpty(n.buf) then n else n.(temp := Some(n.buf.End() - 1))
  }

  /** Index of the first non-blank cell at or after i, or of the last cell. */
  function SkipBlanksIdx(s: seq<Unicode>, i: nat): (j: nat)
    requires i < |s|
    ensures i <= j < |s|
    ensures forall k :: i <= k < j ==> IsBlank(s[k])
    ensures !IsBlank(s[j]) || j == |s| - 1
    decreases |s| - i
  {
    if IsBlank(s[i]) && i + 1 < |s| then SkipBlanksIdx(s, i + 1) else i
  }

  /** Index of the last non-blank cell at or before i, or of the first cell. */
  function SkipBlanksBackIdx(s: seq<Unicode>, i: nat): (j: nat)
    requires i < |s|
    ensures j <= i
    ensures forall k :: j < k <= i ==> IsBlank(s[k])
    ensures !IsBlank(s[j]) || j == 0
  {
    if IsBlank(s[i]) && i > 0 then SkipBlanksBackIdx(s, i - 1) else i
  }

  /** acs_rspc: skip right past blanks. */
  function RightSpaces(n: Nav): (n': Nav)
    requires Valid(n.buf)
    ensures n'.buf == n.buf
    ensures !OnText(n) ==> n' == n
    ensures OnText(n) ==> OnText(n') && n.temp.value <= n'.temp.value
    ensures OnText(n) ==> forall p :: n.temp.value <= p < n'.temp.value ==> IsBlank(n.buf.At(p))
    ensures OnText(n) ==> !IsBlank(n.buf.At(n'.temp.value)) || n'.temp.value == n.buf.End() - 1
  {
    if !OnText(n) then n
    else n.(temp := Some(n.buf.base + SkipBlanksIdx(n.buf.cells, Idx(n))))
  }

  /** acs_lspc: skip left past blanks. */
  function LeftSpaces(n: Nav): (n': Nav)
    requires Valid(n.buf)
    ensures n'.buf == n.buf
    ensures !OnText(n) ==> n' == n
    ensures OnText(n) ==> OnText(n') && n'.temp.value <= n.temp.value
    ensures OnText(n) ==> forall p :: n'.temp.value < p <= n.temp.value ==> IsBlank(n.buf.At(p))
    ensures OnText(n) ==> !IsBlank(n.buf.At(n'.temp.value)) || n'.temp.value == n.buf.Start()
  {
    if !OnText(n) then n
    else n.(temp := Some(n.buf.base + SkipBlanksBackIdx(n.buf.cells, Idx(n))))
  }

  /** acs_nextline: go to the first cell of the next line; 0, leaving the
      temp cursor alone, when this is the last line. */
  function NextLine(n: Nav): (m: Move)
    requires Valid(n.buf)
    ensures m.nav.buf == n.buf
    ensures m.code == 0 || m.code == 1
    ensures m.code == 0 ==> m.nav == n
    ensures m.code == 1 ==> OnText(n) && OnText(m.nav) && n.temp.value < m.nav.temp.value
    ensures m.code == 1 ==> n.buf.At(m.nav.temp.value - 1) == NL
    ensures m.code == 1 ==> forall p :: n.temp.value <= p < m.nav.temp.value - 1 ==> n.buf.At(p) != NL
    ensures OnText(n) && m.code == 0 ==>
      forall p :: n.temp.value <= p < n.buf.End() - 1 ==> n.buf.At(p) != NL
  {
    if !OnText(n) then Move(0, n)
    else
      var e := LineEndIdx(n.buf.cells, Idx(n));
      if e + 1 < |n.buf.cells| then Move(1, n.(temp := Some(n.buf.base + e + 1))) else Move(0, n)
  }

  /** acs_prevline: go to the first cell of the previous line; 0 on the
      first line. */
  function PrevLine(n: Nav): (m: Move)
    requires Valid(n.buf)
    ensures m.nav.buf == n.buf
    ensures m.code == 0 || m.code == 1
    ensures m.code == 0 ==> m.nav == n
    ensures m.code == 1 ==> OnText(n) && OnText(m.nav) && m.nav.temp.value < n.temp.value
    ensures m.code == 1 ==> m.nav.temp.value == n.buf.Start() || n.buf.At(m.nav.temp.value - 1) == NL
    ensures m.code == 1 ==> exists p :: m.nav.temp.value <= p < n.temp.value && n.buf.At(p) == NL
    ensures OnText(n) && m.code == 0 ==>
      forall p :: n.buf.Start() <= p < n.temp.value ==> n.buf.At(p) != NL
  {
    if !OnText(n) then Move(0, n)
    else
      var j := LineStartIdx(n.buf.cells, Idx(n));
      if j == 0 then Move(0, n)
      else
        var p := LineStartIdx(n.buf.cells, j - 1);
        assert n.buf.At(n.buf.base + j - 1) == NL;
        Move(1, n.(temp := Some(n.buf.base + p)))
  }

  /** Start of line and end of line find the same line: the start seen
      from the line's end, and the end seen from its start, are those seen
      from the cursor. */
  lemma LineMotionsAgree(n: Nav)
    requires Valid(n.buf) && OnText(n)
    ensures StartLine(EndLine(n).nav).nav == StartLine(n).nav
    ensures EndLine(StartLine(n).nav) == EndLine(n)
  {
    var s := n.buf.cells;
    var i := Idx(n);
    var j := LineStartIdx(s, i);
    var e := LineEndIdx(s, i);
    LineStartUnique(s, e, j);
    LineEndUnique(s, j, e);
  }

  /** Going to the next line and back lands at the start of the line the
      cursor was on. */
  lemma NextPrevLine(n: Nav)
    requires Valid(n.buf)
    requires NextLine(n).code == 1
    ensures PrevLine(NextLine(n).nav) == Move(1, StartLine(n).nav)
  {
    var s := n.buf.cells;
    var i := Idx(n);
    var e := LineEndIdx(s, i);
    LineStartUnique(s, e + 1, e + 1);
    LineStartUnique(s, e, LineStartIdx(s, i));
  }

  /** Going to the previous line and forward again lands at the start of
      the line the cursor was on. */
  lemma PrevNextLine(n: Nav)
    requires Valid(n.buf)
    requires PrevLine(n).code == 1
    ensures NextLine(PrevLine(n).nav) == Move(1, StartLine(n).nav)
  {
    var s := n.buf.cells;
    var j := LineStartIdx(s, Idx(n));
    var p := LineStartIdx(s, j - 1);
    LineEndUnique(s, p, j - 1);
  }

  /** Index of the word nextword goes to from the word holding s[i]: past
      the rest of the word and the blanks after it, to the next non-blank
      cell; None when only blanks follow. */
  function NextWordIdx(loc: Locale, s: seq<Unicode>, i: nat): (r: Option<nat>)
    requires LocaleOk(loc) && i < |s|
    ensures r.Some? ==> WordEnd(loc, s, i) < r.value < |s|
    ensures r.Some? ==> forall k :: WordEnd(loc, s, i) < k < r.value ==> IsBlank(s[k])
    ensures r.Some? ==> WordBegins(loc, s, r.value) && !IsBlank(s[r.value])
    ensures r.None? ==> forall k :: WordEnd(loc, s, i) < k < |s| ==> IsBlank(s[k])
  {
    var e := WordEnd(loc, s, i);
    if e + 1 >= |s| then None
    else
      var p := SkipBlanksIdx(s, e + 1);
      if IsBlank(s[p]) then None
      else if p > e + 1 then
        BlankStandsAlone(loc, s, p - 1);
        Some(p)
      else Some(p)
  }

  /** Index of the word prevword goes to from the word holding s[i]: the
      start of the word of the nearest non-blank cell before it; None when
      only blanks precede. */
  function PrevWordIdx(loc: Locale, s: seq<Unicode>, i: nat): (r: Option<nat>)
    requires i < |s|
    ensures r.Some? ==> r.value < WordStart(loc, s, i) && WordBegins(loc, s, r.value)
    ensures r.None? <==> forall k :: 0 <= k < WordStart(loc, s, i) ==> IsBlank(s[k])
    ensures LocaleOk(loc) && r.Some? ==> !IsBlank(s[r.value])
  {
    var j := WordStart(loc, s, i);
    if j == 0 then None
    else
      var p := SkipBlanksBackIdx(s, j - 1);
      if IsBlank(s[p]) then None
      else if LocaleOk(loc) then
        WordStartNotBlank(loc, s, p);
        Some(WordStart(loc, s, p))
      else Some(WordStart(loc, s, p))
  }

  /** acs_nextword: go to the start of the next word; 0, leaving the temp
      cursor alone, when only blanks follow. */
  function NextWord(loc: Locale, n: Nav): (m: Move)
    requires Valid(n.buf) && LocaleOk(loc)
    ensures m.nav.buf == n.buf
    ensures m.code == 0 || m.code == 1
    ensures m.code == 0 ==> m.nav == n
    ensures m.code == 1 <==> OnText(n) && NextWordIdx(loc, n.buf.cells, Idx(n)).Some?
    ensures OnText(n) ==>
      (m.code == 0 <==> forall k :: WordEnd(loc, n.buf.cells, Idx(n)) < k < |n.buf.cells| ==> IsBlank(n.buf.cells[k]))
    ensures m.code == 1 ==> OnText(m.nav) && n.temp.value < m.nav.temp.value
    ensures m.code == 1 ==> Some(Idx(m.nav)) == NextWordIdx(loc, n.buf.cells, Idx(n))
  {
    if !OnText(n) then Move(0, n)
    else
      match NextWordIdx(loc, n.buf.cells, Idx(n))
      case None => Move(0, n)
      case Some(p) => Move(1, n.(temp := Some(n.buf.base + p)))
  }

  /** acs_prevword: go to the start of the word before the current one,
      skipping blanks; 0 when only blanks precede. */
  function PrevWord(loc: Locale, n: Nav): (m: Move)
    requires Valid(n.buf)
    ensures m.nav.buf == n.buf
    ensures m.code == 0 || m.code == 1
    ensures m.code == 0 ==> m.nav == n
    ensures m.code == 1 <==> OnText(n) && PrevWordIdx(loc, n.buf.cells, Idx(n)).Some?
    ensures OnText(n) ==>
      (m.code == 0 <==> forall k :: 0 <= k < WordStart(loc, n.buf.cells, Idx(n)) ==> IsBlank(n.buf.cells[k]))
    ensures m.code == 1 ==> OnText(m.nav) && m.nav.temp.value < n.temp.value
    ensures LocaleOk(loc) && m.code == 1 ==> !IsBlank(n.buf.cells[Idx(m.nav)])
    ensures m.code == 1 ==> Some(Idx(m.nav)) == PrevWordIdx(loc, n.buf.cells, Idx(n))
  {
    if !OnText(n) then Move(0, n)
    else
      match PrevWordIdx(loc, n.buf.cells, Idx(n))
      case None => Move(0, n)
      case Some(p) => Move(1, n.(temp := Some(n.buf.base + p)))
  }

  /** Skipping back from i over blanks stops on the first non-blank at e. */
  lemma {:induction false} SkipBackStopsAt(s: seq<Unicode>, e: nat, i: nat)
    requires e <= i < |s|
    requires !IsBlank(s[e])
    requires forall k :: e < k <= i ==> IsBlank(s[k])
    ensures SkipBlanksBackIdx(s, i) == e
    decreases i - e
  {
    if e < i {
      SkipBackStopsAt(s, e, i - 1);
    }
  }

  /** Skipping on from i over blanks stops on the first non-blank at q. */
  lemma {:induction false} SkipStopsAt(s: seq<Unicode>, i: nat, q: nat)
    requires i <= q < |s|
    requires !IsBlank(s[q])
    requires forall k :: i <= k < q ==> IsBlank(s[k])
    ensures SkipBlanksIdx(s, i) == q
    decreases q - i
  {
    if i < q {
      SkipStopsAt(s, i + 1, q);
    }
  }

  /** The last cell of the word under a non-blank cell is not blank. */
  lemma WordEndNotBlank(loc: Locale, s: seq<Unicode>, i: nat)
    requires LocaleOk(loc) && i < |s| && !IsBlank(s[i])
    ensures !IsBlank(s[WordEnd(loc, s, i)])
  {
    var e := WordEnd(loc, s, i);
    if e > i {
      GluedNotBlank(loc, s, e - 1);
    }
  }

  /** The first cell of the word under a non-blank cell is not blank. */
  lemma WordStartNotBlank(loc: Locale, s: seq<Unicode>, i: nat)
    requires LocaleOk(loc) && i < |s| && !IsBlank(s[i])
    ensures !IsBlank(s[WordStart(loc, s, i)])
  {
    var j := WordStart(loc, s, i);
    if j < i {
      GluedNotBlank(loc, s, j);
    }
  }

  /** Glue joins only non-blank cells. */
  lemma GluedNotBlank(loc: Locale, s: seq<Unicode>, k: nat)
    requires LocaleOk(loc)
    requires k + 1 < |s| && Glued(loc, s, k)
    ensures !IsBlank(s[k]) && !IsBlank(s[k + 1])
  {
    assert !loc.isAlpha(SPACE);
  }

  /** A blank is never glued to its neighbours. */
  lemma BlankStandsAlone(loc: Locale, s: seq<Unicode>, i: nat)
    requires LocaleOk(loc)
    requires i + 1 < |s|
    requires IsBlank(s[i]) || IsBlank(s[i + 1])
    ensures !Glued(loc, s, i)
  {
    assert !loc.isAlpha(SPACE);
  }

  /** From the start of a word, prevword goes to the start of the word of
      the nearest non-blank cell e before it. */
  lemma PrevWordIdxAt(loc: Locale, s: seq<Unicode>, p: nat, e: nat)
    requires e < p < |s| && WordBegins(loc, s, p) && !IsBlank(s[e])
    requires forall k :: e < k < p ==> IsBlank(s[k])
    ensures PrevWordIdx(loc, s, p) == Some(WordStart(loc, s, e))
  {
    assert WordStart(loc, s, p) == p;
    SkipBackStopsAt(s, e, p - 1);
  }

  /** When prevword finds a word, it is the word of the nearest non-blank
      cell before the current word. */
  lemma PrevWordIdxFound(loc: Locale, s: seq<Unicode>, i: nat)
    requires i < |s| && PrevWordIdx(loc, s, i).Some?
    ensures WordStart(loc, s, i) > 0
    ensures !IsBlank(s[SkipBlanksBackIdx(s, WordStart(loc, s, i) - 1)])
    ensures PrevWordIdx(loc, s, i) == Some(WordStart(loc, s, SkipBlanksBackIdx(s, WordStart(loc, s, i) - 1)))
  {
  }

  /** From a word ending at e, nextword goes to the nearest non-blank cell
      q after e. */
  lemma NextWordIdxAt(loc: Locale, s: seq<Unicode>, i: nat, q: nat)
    requires LocaleOk(loc) && i < |s|
    requires WordEnd(loc, s, i) < q < |s| && !IsBlank(s[q])
    requires forall k :: WordEnd(loc, s, i) < k < q ==> IsBlank(s[k])
    ensures NextWordIdx(loc, s, i) == Some(q)
  {
    SkipStopsAt(s, WordEnd(loc, s, i) + 1, q);
  }

  /** A non-blank cell followed by a blank or by the start of a word ends
      its word. */
  lemma EndsWord(loc: Locale, s: seq<Unicode>, p: nat)
    requires LocaleOk(loc) && p + 1 < |s| && !IsBlank(s[p])
    requires IsBlank(s[p + 1]) || WordBegins(loc, s, p + 1)
    ensures WordEnd(loc, s, p) == p
  {
    if IsBlank(s[p + 1]) {
      BlankStandsAlone(loc, s, p);
    }
  }

  /** From a non-blank cell, the word after the next word's predecessor is
      the cell's own word. */
  lemma NextPrevWordIdx(loc: Locale, s: seq<Unicode>, i: nat)
    requires LocaleOk(loc) && i < |s| && !IsBlank(s[i])
    requires NextWordIdx(loc, s, i).Some?
    ensures PrevWordIdx(loc, s, NextWordIdx(loc, s, i).value) == Some(WordStart(loc, s, i))
  {
    var e := WordEnd(loc, s, i);
    WordEndNotBlank(loc, s, i);
    PrevWordIdxAt(loc, s, NextWordIdx(loc, s, i).value, e);
    SameWord(loc, s, i);
  }

  /** From a non-blank cell, the word after the previous word is the cell's
      own word. */
  lemma PrevNextWordIdx(loc: Locale, s: seq<Unicode>, i: nat)
    requires LocaleOk(loc) && i < |s| && !IsBlank(s[i])
    requires PrevWordIdx(loc, s, i).Some?
    ensures NextWordIdx(loc, s, PrevWordIdx(loc, s, i).value) == Some(WordStart(loc, s, i))
  {
    var j := WordStart(loc, s, i);
    PrevWordIdxFound(loc, s, i);
    var p := SkipBlanksBackIdx(s, j - 1);
    WordStartNotBlank(loc, s, i);
    NextWordAfterBlanks(loc, s, p, j);
  }

  /** From the word of a non-blank cell p, nextword goes to the start of
      the word j that follows p across blanks only. */
  lemma NextWordAfterBlanks(loc: Locale, s: seq<Unicode>, p: nat, j: nat)
    requires LocaleOk(loc) && p < j < |s| && !IsBlank(s[p]) && !IsBlank(s[j]) && WordBegins(loc, s, j)
    requires forall k :: p < k < j ==> IsBlank(s[k])
    ensures NextWordIdx(loc, s, WordStart(loc, s, p)) == Some(j)
  {
    if p + 1 < j {
      assert IsBlank(s[p + 1]);
    }
    EndsWord(loc, s, p);
    SameWord(loc, s, p);
    NextWordIdxAt(loc, s, WordStart(loc, s, p), j);
  }

  /** From a word, going to the next word and back returns to the start of
      the word. */
  lemma NextPrevWord(loc: Locale, n: Nav)
    requires Valid(n.buf) && LocaleOk(loc)
    requires NextWord(loc, n).code == 1
    requires !IsBlank(n.buf.At(n.temp.value))
    ensures PrevWord(loc, NextWord(loc, n).nav) == Move(1, StartWord(loc, n).nav)
  {
    var s := n.buf.cells;
    NextPrevWordIdx(loc, s, Idx(n));
    var q := NextWordIdx(loc, s, Idx(n)).value;
    NextWordLands(loc, n, q);
    PrevWordLands(loc, n.(temp := Some(n.buf.base + q)), WordStart(loc, s, Idx(n)));
  }

  /** From a word, going to the previous word and on again returns to the
      start of the word. */
  lemma PrevNextWord(loc: Locale, n: Nav)
    requires Valid(n.buf) && LocaleOk(loc)
    requires PrevWord(loc, n).code == 1
    requires !IsBlank(n.buf.At(n.temp.value))
    ensures NextWord(loc, PrevWord(loc, n).nav) == Move(1, StartWord(loc, n).nav)
  {
    var s := n.buf.cells;
    PrevNextWordIdx(loc, s, Idx(n));
    var q := PrevWordIdx(loc, s, Idx(n)).value;
    PrevWordLands(loc, n, q);
    NextWordLands(loc, n.(temp := Some(n.buf.base + q)), WordStart(loc, s, Idx(n)));
  }

  /** nextword from a cell whose next word starts at index q lands there. */
  lemma NextWordLands(loc: Locale, n: Nav, q: nat)
    requires Valid(n.buf) && LocaleOk(loc) && OnText(n)
    requires NextWordIdx(loc, n.buf.cells, Idx(n)) == Some(q)
    ensures NextWord(loc, n) == Move(1, n.(temp := Some(n.buf.base + q)))
  {
  }

  /** prevword from a cell whose previous word starts at index q lands
      there. */
  lemma PrevWordLands(loc: Locale, n: Nav, q: nat)
    requires Valid(n.buf) && OnText(n)
    requires PrevWordIdx(loc, n.buf.cells, Idx(n)) == Some(q)
    ensures PrevWord(loc, n) == Move(1, n.(temp := Some(n.buf.base + q)))
  {
  }

  /** The pattern matches the cells at index p, ignoring case. */
  predicate MatchAt(loc: Locale, s: seq<Unicode>, pat: seq<Unicode>, p: nat) {
    && p + |pat| <= |s|
    && forall k :: 0 <= k < |pat| ==> loc.toLower(s[p + k]) == loc.toLower(pat[k])
  }

  /** The first match at index i or later. */
  function FindForward(loc: Locale, s: seq<Unicode>, pat: seq<Unicode>, i: nat): (r: Option<nat>)
    requires i <= |s|
    ensures r.Some? ==> i <= r.value < |s| && MatchAt(loc, s, pat, r.value)
    ensures r.Some? ==> forall k :: i <= k < r.value ==> !MatchAt(loc, s, pat, k)
    ensures r.None? ==> forall k :: i <= k < |s| ==> !MatchAt(loc, s, pat, k)
    decreases |s| - i
  {
    if i == |s| then None
    else if MatchAt(loc, s, pat, i) then Some(i)
    else FindForward(loc, s, pat, i + 1)
  }

  /** The last match at an index below i. */
  function FindBackward(loc: Locale, s: seq<Unicode>, pat: seq<Unicode>, i: nat): (r: Option<nat>)
    requires i <= |s|
    ensures r.Some? ==> r.value < i && MatchAt(loc, s, pat, r.value)
    ensures r.Some? ==> forall k :: r.value < k < i ==> !MatchAt(loc, s, pat, k)
    ensures r.None? ==> forall k :: 0 <= k < i ==> !MatchAt(loc, s, pat, k)
  {
    if i == 0 then None
    else if MatchAt(loc, s, pat, i - 1) then Some(i - 1)
    else FindBackward(loc, s, pat, i - 1)
  }

  /** Where a search may begin (forward) or must end before (backward):
      next to the temp cursor, or on the adjacent line. */
  function SearchBound(n: Nav, back: bool, newline: bool): (i: nat)
    requires OnText(n)
    ensures i <= |n.buf.cells|
  {
    if back then (if newline then LineStartIdx(n.buf.cells, Idx(n)) else Idx(n))
    else if newline then LineEndIdx(n.buf.cells, Idx(n)) + 1
    else Idx(n) + 1
  }

  /** acs_bufsearch: case-insensitive search from the temp cursor, forward or
      backward, starting on the adjacent line when asked; on success the temp
      cursor points to the start of the nearest match. */
  function BufSearch(loc: Locale, n: Nav, pat: seq<Unicode>, back: bool, newline: bool): (m: Move)
    requires Valid(n.buf)
    ensures m.nav.buf == n.buf
    ensures m.code == 0 || m.code == 1
    ensures m.code == 0 ==> m.nav == n
    ensures m.code == 1 ==> OnText(n) && OnText(m.nav) && MatchAt(loc, n.buf.cells, pat, Idx(m.nav))
    ensures m.code == 1 && !back ==>
      && SearchBound(n, back, newline) <= Idx(m.nav)
      && forall k :: SearchBound(n, back, newline) <= k < Idx(m.nav) ==> !MatchAt(loc, n.buf.cells, pat, k)
    ensures m.code == 1 && back ==>
      && Idx(m.nav) < SearchBound(n, back, newline)
      && forall k :: Idx(m.nav) < k < SearchBound(n, back, newline) ==> !MatchAt(loc, n.buf.cells, pat, k)
    ensures OnText(n) && m.code == 0 && !back ==>
      forall k :: SearchBound(n, back, newline) <= k < |n.buf.cells| ==> !MatchAt(loc, n.buf.cells, pat, k)
    ensures OnText(n) && m.code == 0 && back ==>
      forall k :: 0 <= k < SearchBound(n, back, newline) ==> !MatchAt(loc, n.buf.cells, pat, k)
  {
    if !OnText(n) then Move(0, n)
    else
      var bound := SearchBound(n, back, newline);
      var r := if back then FindBackward(loc, n.buf.cells, pat, bound)
               else FindForward(loc, n.buf.cells, pat, bound);
      if r.None? then Move(0, n)
      else Move(1, n.(temp := Some(n.buf.base + r.value)))
  }

  /** The motion commands that return a code. */
  datatype Command =
    | CmdForward | CmdBack | CmdStartLine | CmdEndLine | CmdStartWord | CmdEndWord
    | CmdNextLine | CmdPrevLine | CmdNextWord | CmdPrevWord
    | CmdSearch(pat: seq<Unicode>, back: bool, newline: bool)

  function Run(loc: Locale, cmd: Command, n: Nav): Move
    requires Valid(n.buf) && LocaleOk(loc)
  {
    match cmd
    case CmdForward => Forward(n)
    case CmdBack => Back(n)
    case CmdStartLine => StartLine(n)
    case CmdEndLine => EndLine(n)
    case CmdStartWord => StartWord(loc, n)
    case CmdEndWord => EndWord(loc, n)
    case CmdNextLine => NextLine(n)
    case CmdPrevLine => PrevLine(n)
    case CmdNextWord => NextWord(loc, n)
    case CmdPrevWord => PrevWord(loc, n)
    case CmdSearch(pat, back, newline) => BufSearch(loc, n, pat, back, newline)
  }

  /** Every command acts on the temp cursor alone, reports 0 on an empty
      buffer, and reports only 0 or 1 except for the column of startline. */
  lemma CommandsOnlyMoveTemp(loc: Locale, cmd: Command, n: Nav)
    requires Valid(n.buf) && LocaleOk(loc)
    ensures Run(loc, cmd, n).nav.buf == n.buf
    ensures IsEmpty(n.buf) ==> Run(loc, cmd, n).code == 0
    ensures cmd != CmdStartLine ==> Run(loc, cmd, n).code in {0, 1}
    ensures Run(loc, cmd, n).code >= 0
  {
  }

  /** A motion attempted from the reading cursor: the reading cursor follows
      the temp cursor on success and stays where it was on failure. */
  function TryMove(loc: Locale, cmd: Command, b: Buffer): (r: (int, Buffer))
    requires Valid(b) && LocaleOk(loc)
    ensures Valid(r.1)
    ensures r.1 == b.(cursor := r.1.cursor)
    ensures r.0 == 0 ==> r.1 == b
    ensures r.0 == Run(loc, cmd, CursorSet(Nav(b, None))).code
    ensures r.0 != 0 ==> r.1.cursor.Some? && b.cursor.Some?
    ensures r.0 != 0 ==> r.1.cursor == Run(loc, cmd, CursorSet(Nav(b, None))).nav.temp
    ensures IsEmpty(b) ==> r.0 == 0 && r.1 == b
  {
    var m := Run(loc, cmd, CursorSet(Nav(b, None)));
    CommandsOnlyMoveTemp(loc, cmd, CursorSet(Nav(b, None)));
    if m.code == 0 then (0, b)
    else
      SuccessLandsOnText(loc, cmd, CursorSet(Nav(b, None)));
      (m.code, CursorSync(m.nav).buf)
  }

  /** A successful command leaves the temp cursor on a cell. */
  lemma SuccessLandsOnText(loc: Locale, cmd: Command, n: Nav)
    requires Valid(n.buf) && LocaleOk(loc)
    requires Run(loc, cmd, n).code != 0
    ensures OnText(n) && OnText(Run(loc, cmd, n).nav)
  {
  }
}

=== FILE: sentence.dfy ===
/** acs_getsentence: from the reading cursor, copy a bounded chunk of
    normalised text together with an offset map back into the buffer.

    Normalisation: every cell is downshifted to one byte; a run of five or
    more identical punctuation marks becomes one repeat token (when asked
    for); runs of blanks become one blank, and no blank is left at either
    end of a chunk read continuously. The offset entry of an output glyph
    that begins a word holds that word's distance from the reading cursor;
    the entry after the last glyph holds the number of cells consumed. */
module Sentence {
  import opened Wrappers
  import opened Chars
  import opened ReadingBuffer

  const ACS_GS_ONEWORD: int := 1
  const ACS_GS_STOPLINE: int := 2
  const ACS_GS_REPEAT: int := 4
  const ACS_GS_NLSPACE: int := 8

  /** The option bits of a call. One-word excludes the other two newline
      options; stop-at-newline takes precedence over newline-as-space. */
  datatype Flags = Flags(oneWord: bool, stopLine: bool, repeat: bool, nlSpace: bool)

  /** The four option bits of a properties value: in two's complement they
      are the bits of its remainder modulo 16, which is never negative. */
  function FlagsOf(properties: int): Flags {
    var r := properties % 16;
    Flags(r % 2 == 1, (r / 2) % 2 == 1, (r / 4) % 2 == 1, (r / 8) % 2 == 1)
  }

  /** The properties argument that asks for exactly these flags. */
  function PropertiesOf(f: Flags): (p: int)
    ensures 0 <= p < 16
  {
    (if f.oneWord then ACS_GS_ONEWORD else 0) + (if f.stopLine then ACS_GS_STOPLINE else 0)
    + (if f.repeat then ACS_GS_REPEAT else 0) + (if f.nlSpace then ACS_GS_NLSPACE else 0)
  }

  /** Flags survive being encoded as properties bits, and the properties
      argument matters only through its four low bits. */
  lemma FlagsRoundTrip(f: Flags, properties: int)
    ensures FlagsOf(PropertiesOf(f)) == f
    ensures PropertiesOf(FlagsOf(properties)) == properties % 16
  {
    var r := properties % 16;
    assert FlagsOf(properties) == FlagsOf(r);
    LowBitsRoundTrip(r);
    FlagsBitsRoundTrip(f);
  }

  /** Each of the sixteen flag combinations is read back from its bits. */
  lemma FlagsBitsRoundTrip(f: Flags)
    ensures FlagsOf(PropertiesOf(f)) == f
  {
    var p := PropertiesOf(f);
    assert p in {0, 1, 2, 3, 4, 5, 6, 7, 8, 9, 10, 11, 12, 13, 14, 15};
  }

  /** Each of the sixteen low-bit values is the properties of its flags. */
  lemma LowBitsRoundTrip(r: int)
    requires 0 <= r < 16
    ensures PropertiesOf(FlagsOf(r)) == r
  {
    assert r in {0, 1, 2, 3, 4, 5, 6, 7, 8, 9, 10, 11, 12, 13, 14, 15};
  }

  /** The host tables extraction consults. */
  datatype Env = Env(loc: Locale, equiv: Equivalences)

  /** One entry of the destination: a byte, or a compressed run of a
      punctuation mark with its length (pronounced, say, "dash length 20"
      by the punctuation table). */
  datatype Glyph = Char(b: Byte) | Repeat(b: Byte, count: nat)

  const Blank: Glyph := Char(SPACE as Byte)

  /** The destination text and the offset array, one entry longer than the
      text: the last entry sits beside the terminating null. */
  datatype Chunk = Chunk(text: seq<Glyph>, offsets: seq<nat>)

  function Consumed(c: Chunk): nat
    requires |c.offsets| == |c.text| + 1
  {
    c.offsets[|c.text|]
  }

  /** A newline that ends a chunk read with stop-at-newline. */
  predicate StopsAt(f: Flags, c: Unicode) {
    f.stopLine && c == NL
  }

  /** A cell that takes part in blank folding. */
  predicate FoldsToBlank(f: Flags, c: Unicode) {
    IsBlank(c) || (f.nlSpace && c == NL)
  }

  /** A run of five or more identical punctuation marks starts at i and is
      to be compressed. */
  predicate RepeatAt(env: Env, f: Flags, s: seq<Unicode>, i: nat)
    requires i < |s|
  {
    f.repeat && IsPunct(env.loc, s[i]) && RunAhead(s, i) >= 5
  }

  /** The glyph produced for the cells starting at p. */
  predicate GlyphFrom(env: Env, s: seq<Unicode>, p: nat, g: Glyph)
    requires p < |s|
  {
    || g == Char(Downshift(env.equiv, s[p]))
    || g == Repeat(Downshift(env.equiv, s[p]), RunAhead(s, p))
  }

  /** The offset entry of a glyph read from cell p. */
  function MarkOf(env: Env, s: seq<Unicode>, p: nat): nat
    requires p < |s|
  {
    if WordBegins(env.loc, s, p) then p else 0
  }

  /** The offset array fits the text; its nonzero entries rise strictly, lie
      in the consumed cells, and each marks the beginning of the word its
      glyph was read from. */
  predicate OffsetsOk(env: Env, s: seq<Unicode>, c: Chunk) {
    && |c.offsets| == |c.text| + 1
    && Consumed(c) <= |s|
    && (forall j :: 0 <= j < |c.text| && c.offsets[j] != 0 ==>
          && c.offsets[j] < Consumed(c)
          && WordBegins(env.loc, s, c.offsets[j])
          && GlyphFrom(env, s, c.offsets[j], c.text[j]))
    && (forall j1, j2 :: 0 <= j1 < j2 < |c.text| && c.offsets[j1] != 0 && c.offsets[j2] != 0 ==>
          c.offsets[j1] < c.offsets[j2])
  }

  /** No two blanks in a row. */
  predicate NoDoubleBlank(t: seq<Glyph>) {
    forall j :: 0 <= j < |t| - 1 ==> t[j] != Blank || t[j + 1] != Blank
  }

  /** Blanks are folded and stripped from both ends. */
  predicate BlanksFolded(t: seq<Glyph>) {
    && NoDoubleBlank(t)
    && (|t| > 0 ==> t[0] != Blank && t[|t| - 1] != Blank)
  }

  // ---------------------------------------------------------------------
  // Continuous reading

  /** The state of a continuous read: the next cell, the glyphs and offsets
      so far. */
  datatype Scan = Scan(i: nat, text: seq<Glyph>, offsets: seq<nat>)

  /** Reading goes on while cells remain, the destination has room, and the
      last cell read was not a newline that stops the chunk. */
  predicate Going(f: Flags, s: seq<Unicode>, room: nat, st: Scan) {
    && st.i < |s|
    && |st.text| < room
    && !(0 < st.i <= |s| && StopsAt(f, s[st.i - 1]))
  }

  /** Read one cell, or one compressed run. */
  function Step(env: Env, f: Flags, s: seq<Unicode>, st: Scan): (st': Scan)
    requires st.i < |s|
    ensures st.i < st'.i <= |s|
    ensures |st.offsets| == |st.text| ==> |st'.offsets| == |st'.text|
  {
    var c := s[st.i];
    if StopsAt(f, c) then st.(i := st.i + 1)
    else if FoldsToBlank(f, c) then
      if |st.text| == 0 || st.text[|st.text| - 1] == Blank then st.(i := st.i + 1)
      else Scan(st.i + 1, st.text + [Blank], st.offsets + [0])
    else if RepeatAt(env, f, s, st.i) then
      var n := RunAhead(s, st.i);
      Scan(st.i + n, st.text + [Repeat(Downshift(env.equiv, c), n)], st.offsets + [MarkOf(env, s, st.i)])
    else
      Scan(st.i + 1, st.text + [Char(Downshift(env.equiv, c))], st.offsets + [MarkOf(env, s, st.i)])
  }

  /** Read until a stopping point. */
  function Scanned(env: Env, f: Flags, s: seq<Unicode>, room: nat, st: Scan): (st': Scan)
    requires st.i <= |s|
    ensures st.i <= st'.i <= |s|
    ensures !Going(f, s, room, st')
    ensures |st.offsets| == |st.text| ==> |st'.offsets| == |st'.text|
    decreases |s| - st.i
  {
    if Going(f, s, room, st) then Scanned(env, f, s, room, Step(env, f, s, st)) else st
  }

  /** Strip a trailing blank and close the offset array with the count of
      cells consumed. */
  function Finish(st: Scan): Chunk
    requires |st.offsets| == |st.text|
  {
    if |st.text| > 0 && st.text[|st.text| - 1] == Blank then
      Chunk(st.text[..|st.text| - 1], st.offsets[..|st.text| - 1] + [st.i])
    else
      Chunk(st.text, st.offsets + [st.i])
  }

  /** What a scan keeps true at every step: its shape, ... */
  predicate ScanShape(s: seq<Unicode>, room: nat, st: Scan) {
    st.i <= |s| && |st.offsets| == |st.text| <= room
  }

  /** ... its offsets, ... */
  predicate ScanMarks(env: Env, s: seq<Unicode>, st: Scan)
    requires |st.offsets| == |st.text|
  {
    && (forall j :: 0 <= j < |st.text| && st.offsets[j] != 0 ==>
          && st.offsets[j] < st.i && st.offsets[j] < |s|
          && WordBegins(env.loc, s, st.offsets[j])
          && GlyphFrom(env, s, st.offsets[j], st.text[j]))
    && (forall j1, j2 :: 0 <= j1 < j2 < |st.text| && st.offsets[j1] != 0 && st.offsets[j2] != 0 ==>
          st.offsets[j1] < st.offsets[j2])
  }

  /** ... its blanks, ... */
  predicate ScanBlanks(s: seq<Unicode>, st: Scan) {
    && NoDoubleBlank(st.text)
    && (|st.text| > 0 ==> st.text[0] != Blank)
    && ((forall k :: 0 <= k < st.i && k < |s| ==> IsBlank(s[k])) ==> st.text == [])
  }

  /** ... and its newlines. */
  predicate ScanLines(f: Flags, s: seq<Unicode>, st: Scan) {
    && (f.stopLine || f.nlSpace ==> forall j :: 0 <= j < |st.text| ==> st.text[j] != Char(NL as Byte))
    && (f.stopLine ==> forall k :: 0 <= k < st.i - 1 && k < |s| ==> s[k] != NL)
  }

  predicate ScanInv(env: Env, f: Flags, s: seq<Unicode>, room: nat, st: Scan) {
    && ScanShape(s, room, st)
    && ScanMarks(env, s, st)
    && ScanBlanks(s, st)
    && ScanLines(f, s, st)
  }

  /** The glyph a step appends, if any, and its offset entry. */
  function Added(env: Env, f: Flags, s: seq<Unicode>, st: Scan): (r: Option<(Glyph, nat)>)
    requires st.i < |s|
  {
    var c := s[st.i];
    if StopsAt(f, c) then None
    else if FoldsToBlank(f, c) then
      if |st.text| == 0 || st.text[|st.text| - 1] == Blank then None else Some((Blank, 0))
    else if RepeatAt(env, f, s, st.i) then Some((Repeat(Downshift(env.equiv, c), RunAhead(s, st.i)), MarkOf(env, s, st.i)))
    else Some((Char(Downshift(env.equiv, c)), MarkOf(env, s, st.i)))
  }

  /** A step appends at most one glyph with its offset entry. */
  lemma StepAppends(env: Env, f: Flags, s: seq<Unicode>, st: Scan)
    requires st.i < |s|
    ensures var st' := Step(env, f, s, st);
      match Added(env, f, s, st)
      case None => st'.text == st.text && st'.offsets == st.offsets
      case Some(gm) => st'.text == st.text + [gm.0] && st'.offsets == st.offsets + [gm.1]
  {
  }

  lemma StepKeepsMarks(env: Env, f: Flags, s: seq<Unicode>, room: nat, st: Scan)
    requires ScanShape(s, room, st) && ScanMarks(env, s, st) && st.i < |s|
    ensures ScanMarks(env, s, Step(env, f, s, st))
  {
    StepAppends(env, f, s, st);
    var st' := Step(env, f, s, st);
    var a := Added(env, f, s, st);
    if a.Some? {
      var n := |st.text|;
      assert a.value.1 != 0 ==> a.value.1 == st.i && WordBegins(env.loc, s, st.i) && GlyphFrom(env, s, st.i, a.value.0);
      assert forall j :: 0 <= j < n ==> st'.text[j] == st.text[j] && st'.offsets[j] == st.offsets[j];
    }
  }

  lemma StepKeepsBlanks(env: Env, f: Flags, s: seq<Unicode>, room: nat, st: Scan)
    requires ScanShape(s, room, st) && ScanBlanks(s, st) && st.i < |s|
    requires EquivalencesOk(env.equiv)
    ensures ScanBlanks(s, Step(env, f, s, st))
  {
    StepAppends(env, f, s, st);
    var st' := Step(env, f, s, st);
    var a := Added(env, f, s, st);
    if a.Some? && a.value.0 != Blank {
      assert !IsBlank(s[st.i]);
      assert !(forall k :: 0 <= k < st'.i && k < |s| ==> IsBlank(s[k]));
    }
    if a.Some? && a.value.0 == Blank {
      assert |st.text| > 0;
    }
    if a.Some? {
      assert forall j :: 0 <= j < |st.text| ==> st'.text[j] == st.text[j];
    }
    if a.None? && (forall k :: 0 <= k < st'.i && k < |s| ==> IsBlank(s[k])) {
      assert forall k :: 0 <= k < st.i && k < |s| ==> IsBlank(s[k]);
    }
  }

  lemma StepKeepsLines(env: Env, f: Flags, s: seq<Unicode>, room: nat, st: Scan)
    requires ScanShape(s, room, st) && ScanLines(f, s, st) && Going(f, s, room, st)
    requires EquivalencesOk(env.equiv)
    ensures ScanLines(f, s, Step(env, f, s, st))
  {
    StepAppends(env, f, s, st);
    var st' := Step(env, f, s, st);
    var c := s[st.i];
    var a := Added(env, f, s, st);
    if a.Some? && (f.stopLine || f.nlSpace) {
      assert forall j :: 0 <= j < |st.text| ==> st'.text[j] == st.text[j];
      if a.value.0 != Blank {
        assert c != NL;
        assert Downshift(env.equiv, c) != NL as Byte;
      }
    }
    if f.stopLine && RepeatAt(env, f, s, st.i) {
      assert forall k :: st.i <= k < st'.i ==> s[k] == c;
    }
  }

  lemma StepKeepsInv(env: Env, f: Flags, s: seq<Unicode>, room: nat, st: Scan)
    requires EquivalencesOk(env.equiv)
    requires ScanInv(env, f, s, room, st) && Going(f, s, room, st)
    ensures ScanInv(env, f, s, room, Step(env, f, s, st))
  {
    StepAppends(env, f, s, st);
    StepKeepsMarks(env, f, s, room, st);
    StepKeepsBlanks(env, f, s, room, st);
    StepKeepsLines(env, f, s, room, st);
  }

  lemma {:induction false} ScannedKeepsInv(env: Env, f: Flags, s: seq<Unicode>, room: nat, st: Scan)
    requires EquivalencesOk(env.equiv)
    requires ScanInv(env, f, s, room, st)
    ensures ScanInv(env, f, s, room, Scanned(env, f, s, room, st))
    decreases |s| - st.i
  {
    if Going(f, s, room, st) {
      StepKeepsInv(env, f, s, room, st);
      ScannedKeepsInv(env, f, s, room, Step(env, f, s, st));
    }
  }

  /** Continuous reading of the cells s from the cursor, with room for that
      many glyphs before the null. */
  function Continuous(env: Env, f: Flags, s: seq<Unicode>, room: nat): Chunk {
    Finish(Scanned(env, f, s, room, Scan(0, [], [])))
  }

  /** Closing a scan keeps its offsets and blanks in shape and reports the
      cells it read as consumed. */
  lemma FinishKeepsInv(env: Env, f: Flags, s: seq<Unicode>, room: nat, st: Scan)
    requires ScanInv(env, f, s, room, st)
    ensures var c := Finish(st);
      && |c.text| <= |st.text| <= room
      && Consumed(c) == st.i
      && OffsetsOk(env, s, c)
      && BlanksFolded(c.text)
      && (f.stopLine || f.nlSpace ==> forall j :: 0 <= j < |c.text| ==> c.text[j] != Char(NL as Byte))
      && ((forall k :: 0 <= k < st.i && k < |s| ==> IsBlank(s[k])) ==> c.text == [])
  {
    FinishIsPrefix(st);
    var c := Finish(st);
    assert forall j :: 0 <= j < |c.text| ==> c.text[j] == st.text[j] && c.offsets[j] == st.offsets[j];
    if |c.text| < |st.text| {
      assert |st.text| >= 2;
    }
  }

  /** Closing a scan drops at most its trailing blank. */
  lemma FinishIsPrefix(st: Scan)
    requires |st.offsets| == |st.text|
    ensures var c := Finish(st);
      && |c.offsets| == |c.text| + 1 && Consumed(c) == st.i
      && c.text == st.text[..|c.text|] && c.offsets[..|c.text|] == st.offsets[..|c.text|]
      && (|c.text| == |st.text| || (|c.text| == |st.text| - 1 && st.text[|c.text|] == Blank))
  {
  }

  /** The bounds and offsets of a continuous read. */
  lemma ContinuousOffsets(env: Env, f: Flags, s: seq<Unicode>, room: nat)
    requires EquivalencesOk(env.equiv)
    ensures var c := Continuous(env, f, s, room);
      && |c.text| <= room
      && OffsetsOk(env, s, c)
      && BlanksFolded(c.text)
      && (f.stopLine || f.nlSpace ==> forall j :: 0 <= j < |c.text| ==> c.text[j] != Char(NL as Byte))
      && (f.stopLine ==> forall k :: 0 <= k < Consumed(c) - 1 ==> s[k] != NL)
      && Pairs(c.text, c.offsets) <= Folded(env, f, s, 0, Leading)
  {
    var st0 := Scan(0, [], []);
    ScannedKeepsInv(env, f, s, room, st0);
    FinishKeepsInv(env, f, s, room, Scanned(env, f, s, room, st0));
    ContinuousFolded(env, f, s, room);
  }

  /** A continuous read makes progress whenever it can, and stops only at
      the end of the cells, a full destination, or a stopping newline. */
  lemma ContinuousProgress(env: Env, f: Flags, s: seq<Unicode>, room: nat)
    requires EquivalencesOk(env.equiv)
    ensures var c := Continuous(env, f, s, room);
      && (|s| == 0 ==> c.text == [] && Consumed(c) == 0)
      && (|s| > 0 && room > 0 ==> Consumed(c) > 0)
      && (|| Consumed(c) == |s|
          || |c.text| + 1 >= room
          || (f.stopLine && 0 < Consumed(c) && s[Consumed(c) - 1] == NL))
  {
    var st0 := Scan(0, [], []);
    var st := Scanned(env, f, s, room, st0);
    ScannedKeepsInv(env, f, s, room, st0);
    FinishKeepsInv(env, f, s, room, st);
    if |s| > 0 && room > 0 {
      assert Going(f, s, room, st0);
      assert st == Scanned(env, f, s, room, Step(env, f, s, st0));
    }
  }

  /** Blank cells alone read as nothing, and are consumed whole. */
  lemma ContinuousAllBlank(env: Env, f: Flags, s: seq<Unicode>, room: nat)
    requires EquivalencesOk(env.equiv)
    requires room > 0
    requires forall k :: 0 <= k < |s| ==> IsBlank(s[k])
    ensures var c := Continuous(env, f, s, room);
      c.text == [] && Consumed(c) == |s|
  {
    AllBlankScan(env, f, s, room, Scan(0, [], []));
  }

  /** A run of blanks is read to its end without producing anything. */
  lemma {:induction false} AllBlankScan(env: Env, f: Flags, s: seq<Unicode>, room: nat, st: Scan)
    requires room > 0
    requires st.i <= |s| && st.text == [] && |st.offsets| == 0
    requires forall k :: 0 <= k < |s| ==> IsBlank(s[k])
    ensures Scanned(env, f, s, room, st).i == |s|
    ensures Scanned(env, f, s, room, st).text == []
    decreases |s| - st.i
  {
    if st.i < |s| {
      assert Going(f, s, room, st) by {
        if st.i > 0 {
          assert IsBlank(s[st.i - 1]);
        }
      }
      AllBlankScan(env, f, s, room, Step(env, f, s, st));
    }
  }

  /** The glyphs the cells from i on read as, with blanks and stopping
      newlines left out: the reference a continuous read follows. */
  function Reading(env: Env, f: Flags, s: seq<Unicode>, i: nat): seq<Glyph>
    decreases |s| - i
  {
    if i >= |s| then []
    else if StopsAt(f, s[i]) || FoldsToBlank(f, s[i]) then Reading(env, f, s, i + 1)
    else if RepeatAt(env, f, s, i) then
      [Repeat(Downshift(env.equiv, s[i]), RunAhead(s, i))] + Reading(env, f, s, i + RunAhead(s, i))
    else [Char(Downshift(env.equiv, s[i]))] + Reading(env, f, s, i + 1)
  }

  /** The glyphs of t other than blanks, in order. */
  function NonBlank(t: seq<Glyph>): (w: seq<Glyph>)
    ensures |w| <= |t|
    ensures Blank !in w
  {
    if |t| == 0 then []
    else NonBlank(t[..|t| - 1]) + (if t[|t| - 1] == Blank then [] else [t[|t| - 1]])
  }

  lemma NonBlankAppend(t: seq<Glyph>, g: Glyph)
    ensures NonBlank(t + [g]) == NonBlank(t) + (if g == Blank then [] else [g])
  {
    assert (t + [g])[..|t|] == t;
  }

  /** The text read so far, blanks aside, is the reference reading of the
      cells read so far. */
  predicate ScanContent(env: Env, f: Flags, s: seq<Unicode>, st: Scan) {
    NonBlank(st.text) + Reading(env, f, s, st.i) == Reading(env, f, s, 0)
  }

  /** A step moves its glyph, if any, from the reading still ahead to the
      text. */
  lemma StepReading(env: Env, f: Flags, s: seq<Unicode>, st: Scan)
    requires EquivalencesOk(env.equiv) && st.i < |s|
    ensures var st' := Step(env, f, s, st);
      NonBlank(st'.text) + Reading(env, f, s, st'.i) == NonBlank(st.text) + Reading(env, f, s, st.i)
  {
    var c := s[st.i];
    if StopsAt(f, c) || FoldsToBlank(f, c) {
      SkipReading(env, f, s, st);
    } else {
      var g := if RepeatAt(env, f, s, st.i) then Repeat(Downshift(env.equiv, c), RunAhead(s, st.i))
               else Char(Downshift(env.equiv, c));
      var n := if RepeatAt(env, f, s, st.i) then RunAhead(s, st.i) else 1;
      assert Step(env, f, s, st).text == st.text + [g];
      assert Step(env, f, s, st).i == st.i + n;
      assert Reading(env, f, s, st.i) == [g] + Reading(env, f, s, st.i + n);
      GlyphReading(st.text, g, Reading(env, f, s, st.i + n));
    }
  }

  /** A cell that reads as nothing, or as a folded blank, leaves the text
      unchanged once blanks are set aside. */
  lemma SkipReading(env: Env, f: Flags, s: seq<Unicode>, st: Scan)
    requires st.i < |s| && (StopsAt(f, s[st.i]) || FoldsToBlank(f, s[st.i]))
    ensures var st' := Step(env, f, s, st);
      NonBlank(st'.text) == NonBlank(st.text) && Reading(env, f, s, st'.i) == Reading(env, f, s, st.i)
  {
    if !StopsAt(f, s[st.i]) && !(|st.text| == 0 || st.text[|st.text| - 1] == Blank) {
      NonBlankAppend(st.text, Blank);
    }
  }

  lemma GlyphReading(t: seq<Glyph>, g: Glyph, rest: seq<Glyph>)
    requires g != Blank
    ensures NonBlank(t + [g]) + rest == NonBlank(t) + ([g] + rest)
  {
    NonBlankAppend(t, g);
  }

  lemma StepKeepsContent(env: Env, f: Flags, s: seq<Unicode>, st: Scan)
    requires EquivalencesOk(env.equiv)
    requires st.i < |s| && ScanContent(env, f, s, st)
    ensures ScanContent(env, f, s, Step(env, f, s, st))
  {
    StepReading(env, f, s, st);
  }

  lemma {:induction false} ScannedKeepsContent(env: Env, f: Flags, s: seq<Unicode>, room: nat, st: Scan)
    requires EquivalencesOk(env.equiv)
    requires st.i <= |s| && ScanContent(env, f, s, st)
    ensures ScanContent(env, f, s, Scanned(env, f, s, room, st))
    decreases |s| - st.i
  {
    if Going(f, s, room, st) {
      StepKeepsContent(env, f, s, st);
      ScannedKeepsContent(env, f, s, room, Step(env, f, s, st));
    }
  }

  /** The text of a continuous read, blanks aside, is exactly the reference
      reading of the cells it consumed: the reading of all the cells is the
      text followed by the reading of the cells left over. */
  lemma ContinuousContent(env: Env, f: Flags, s: seq<Unicode>, room: nat)
    requires EquivalencesOk(env.equiv)
    ensures var c := Continuous(env, f, s, room);
      && |c.offsets| == |c.text| + 1
      && NonBlank(c.text) + Reading(env, f, s, Consumed(c)) == Reading(env, f, s, 0)
      && (Consumed(c) == |s| ==> NonBlank(c.text) == Reading(env, f, s, 0))
  {
    var st0 := Scan(0, [], []);
    assert ScanContent(env, f, s, st0);
    ScannedKeepsContent(env, f, s, room, st0);
    var st := Scanned(env, f, s, room, st0);
    var c := Finish(st);
    if |st.text| > 0 && st.text[|st.text| - 1] == Blank {
      assert NonBlank(c.text) == NonBlank(st.text);
    }
  }

  /** Where the reference reading stands between glyphs: before the first
      one, right after one, or after one and a run of folding cells whose
      single blank is due before the next glyph. */
  datatype Gap = Leading | Joined | Spaced

  /** The glyphs the cells from i on read as, each with its offset entry:
      a run of folding cells between two glyphs gives one blank with entry
      0, leading and trailing runs and stopping newlines give nothing, and
      a glyph carries the cell it starts at when a word begins there. */
  function Folded(env: Env, f: Flags, s: seq<Unicode>, i: nat, gap: Gap): seq<(Glyph, nat)>
    decreases |s| - i
  {
    if i >= |s| then []
    else if StopsAt(f, s[i]) then Folded(env, f, s, i + 1, gap)
    else if FoldsToBlank(f, s[i]) then Folded(env, f, s, i + 1, if gap == Leading then Leading else Spaced)
    else
      var t := TokenAt(env, f, s, i);
      (if gap == Spaced then [(Blank, 0)] else []) + [(t.0, MarkOf(env, s, i))] + Folded(env, f, s, i + t.1, Joined)
  }

  /** The glyph a cell that does not fold starts, with the number of cells
      it covers: a whole run of marks when compressed, else the one cell. */
  function TokenAt(env: Env, f: Flags, s: seq<Unicode>, i: nat): (t: (Glyph, nat))
    requires i < |s|
    ensures 1 <= t.1 <= |s| - i
    ensures GlyphFrom(env, s, i, t.0)
  {
    if RepeatAt(env, f, s, i) then (Repeat(Downshift(env.equiv, s[i]), RunAhead(s, i)), RunAhead(s, i))
    else (Char(Downshift(env.equiv, s[i])), 1)
  }

  /** Each glyph beside its offset entry. */
  function Pairs(t: seq<Glyph>, o: seq<nat>): (p: seq<(Glyph, nat)>)
    requires |t| <= |o|
    ensures |p| == |t|
    ensures forall j :: 0 <= j < |t| ==> p[j] == (t[j], o[j])
  {
    seq(|t|, j requires 0 <= j < |t| => (t[j], o[j]))
  }

  /** The pairs without a trailing blank. */
  function Strip(p: seq<(Glyph, nat)>): seq<(Glyph, nat)> {
    if |p| > 0 && p[|p| - 1].0 == Blank then p[..|p| - 1] else p
  }

  /** The gap a scan has reached, judged from the text so far. */
  function GapOf(t: seq<Glyph>): Gap {
    if |t| == 0 then Leading else if t[|t| - 1] == Blank then Spaced else Joined
  }

  /** The text read so far, with its offsets and without a trailing blank,
      followed by the reference reading from the next cell, is the reference
      reading of all the cells; blanks carry entry 0. */
  predicate ScanFolded(env: Env, f: Flags, s: seq<Unicode>, st: Scan) {
    && |st.offsets| == |st.text|
    && BlanksUnmarked(st)
    && Strip(Pairs(st.text, st.offsets)) + Folded(env, f, s, st.i, GapOf(st.text)) == Folded(env, f, s, 0, Leading)
  }

  lemma PairsAppend(t: seq<Glyph>, o: seq<nat>, g: Glyph, m: nat)
    requires |t| == |o|
    ensures Pairs(t + [g], o + [m]) == Pairs(t, o) + [(g, m)]
  {
  }

  /** A glyph read from a cell that does not fold is never the blank. */
  lemma ReadGlyphNotBlank(env: Env, f: Flags, s: seq<Unicode>, i: nat)
    requires EquivalencesOk(env.equiv)
    requires i < |s| && !FoldsToBlank(f, s[i])
    ensures Char(Downshift(env.equiv, s[i])) != Blank
  {
  }

  /** Blank entries are 0. */
  predicate BlanksUnmarked(st: Scan)
    requires |st.offsets| == |st.text|
  {
    forall j :: 0 <= j < |st.text| && st.text[j] == Blank ==> st.offsets[j] == 0
  }

  /** A step moves the pairs it appends from the reference reading still
      ahead to the text, and folds a run of blanks the way the reference
      does. */
  lemma StepFolded(env: Env, f: Flags, s: seq<Unicode>, st: Scan)
    requires EquivalencesOk(env.equiv) && st.i < |s|
    requires |st.offsets| == |st.text| && BlanksUnmarked(st)
    ensures var st' := Step(env, f, s, st);
      && |st'.offsets| == |st'.text| && BlanksUnmarked(st')
      && Strip(Pairs(st'.text, st'.offsets)) + Folded(env, f, s, st'.i, GapOf(st'.text))
         == Strip(Pairs(st.text, st.offsets)) + Folded(env, f, s, st.i, GapOf(st.text))
  {
    var c := s[st.i];
    if StopsAt(f, c) {
      assert Step(env, f, s, st) == st.(i := st.i + 1);
    } else if FoldsToBlank(f, c) {
      if |st.text| == 0 || st.text[|st.text| - 1] == Blank {
        assert Step(env, f, s, st) == st.(i := st.i + 1);
      } else {
        BlankStepFolded(env, f, s, st);
      }
    } else {
      GlyphStepFolded(env, f, s, st);
    }
  }

  /** The first folding cell after a glyph appends the one blank of its run. */
  lemma BlankStepFolded(env: Env, f: Flags, s: seq<Unicode>, st: Scan)
    requires st.i < |s| && FoldsToBlank(f, s[st.i]) && !StopsAt(f, s[st.i])
    requires |st.offsets| == |st.text| && BlanksUnmarked(st)
    requires |st.text| > 0 && st.text[|st.text| - 1] != Blank
    ensures var st' := Step(env, f, s, st);
      && |st'.offsets| == |st'.text| && BlanksUnmarked(st')
      && Strip(Pairs(st'.text, st'.offsets)) + Folded(env, f, s, st'.i, GapOf(st'.text))
         == Strip(Pairs(st.text, st.offsets)) + Folded(env, f, s, st.i, GapOf(st.text))
  {
    var st' := Step(env, f, s, st);
    var p := Pairs(st.text, st.offsets);
    assert st' == Scan(st.i + 1, st.text + [Blank], st.offsets + [0]);
    PairsAppend(st.text, st.offsets, Blank, 0);
    assert Strip(Pairs(st'.text, st'.offsets)) == p == Strip(p);
    assert Folded(env, f, s, st.i, Joined) == Folded(env, f, s, st.i + 1, Spaced);
  }

  /** A cell that reads as a glyph appends it with its offset entry,
      after the blank the reference owes for a run of folding cells. */
  lemma GlyphStepFolded(env: Env, f: Flags, s: seq<Unicode>, st: Scan)
    requires EquivalencesOk(env.equiv)
    requires st.i < |s| && !FoldsToBlank(f, s[st.i]) && !StopsAt(f, s[st.i])
    requires |st.offsets| == |st.text| && BlanksUnmarked(st)
    ensures var st' := Step(env, f, s, st);
      && |st'.offsets| == |st'.text| && BlanksUnmarked(st')
      && Strip(Pairs(st'.text, st'.offsets)) + Folded(env, f, s, st'.i, GapOf(st'.text))
         == Strip(Pairs(st.text, st.offsets)) + Folded(env, f, s, st.i, GapOf(st.text))
  {
    var t := TokenAt(env, f, s, st.i);
    var m := MarkOf(env, s, st.i);
    ReadGlyphNotBlank(env, f, s, st.i);
    StepReadsToken(env, f, s, st);
    FoldedReadsToken(env, f, s, st.i, GapOf(st.text));
    var rest := Folded(env, f, s, st.i + t.1, Joined);
    AppendGlyphPairs(st.text, st.offsets, t.0, m, rest);
    var st' := Step(env, f, s, st);
    assert st'.text == st.text + [t.0] && st'.offsets == st.offsets + [m] && st'.i == st.i + t.1;
    assert Folded(env, f, s, st'.i, GapOf(st'.text)) == rest;
  }

  /** On a cell that does not fold, a step appends its token. */
  lemma StepReadsToken(env: Env, f: Flags, s: seq<Unicode>, st: Scan)
    requires st.i < |s| && !FoldsToBlank(f, s[st.i]) && !StopsAt(f, s[st.i])
    ensures var t := TokenAt(env, f, s, st.i);
      Step(env, f, s, st) == Scan(st.i + t.1, st.text + [t.0], st.offsets + [MarkOf(env, s, st.i)])
  {
  }

  /** On a cell that does not fold, the reference reads its token, after
      the blank it owes. */
  lemma FoldedReadsToken(env: Env, f: Flags, s: seq<Unicode>, i: nat, gap: Gap)
    requires i < |s| && !FoldsToBlank(f, s[i]) && !StopsAt(f, s[i])
    ensures var t := TokenAt(env, f, s, i);
      Folded(env, f, s, i, gap)
      == (if gap == Spaced then [(Blank, 0)] else []) + [(t.0, MarkOf(env, s, i))] + Folded(env, f, s, i + t.1, Joined)
  {
  }

  /** Appending a glyph to the text settles the blank that was pending. */
  lemma AppendGlyphPairs(t: seq<Glyph>, o: seq<nat>, g: Glyph, m: nat, rest: seq<(Glyph, nat)>)
    requires |o| == |t| && g != Blank
    requires forall j :: 0 <= j < |t| && t[j] == Blank ==> o[j] == 0
    ensures forall j :: 0 <= j < |t| + 1 && (t + [g])[j] == Blank ==> (o + [m])[j] == 0
    ensures GapOf(t + [g]) == Joined
    ensures Strip(Pairs(t + [g], o + [m])) + rest
      == Strip(Pairs(t, o)) + ((if GapOf(t) == Spaced then [(Blank, 0)] else []) + [(g, m)] + rest)
  {
    var p := Pairs(t, o);
    PairsAppend(t, o, g, m);
    if GapOf(t) == Spaced {
      assert p == p[..|p| - 1] + [(Blank, 0)];
    }
  }

  lemma {:induction false} ScannedFolded(env: Env, f: Flags, s: seq<Unicode>, room: nat, st: Scan)
    requires EquivalencesOk(env.equiv)
    requires st.i <= |s| && ScanFolded(env, f, s, st)
    ensures ScanFolded(env, f, s, Scanned(env, f, s, room, st))
    decreases |s| - st.i
  {
    if Going(f, s, room, st) {
      StepFolded(env, f, s, st);
      ScannedFolded(env, f, s, room, Step(env, f, s, st));
    }
  }

  /** Closing a scan drops exactly the trailing blank pair. */
  lemma FinishPairs(st: Scan)
    requires |st.offsets| == |st.text|
    ensures var c := Finish(st);
      Pairs(c.text, c.offsets) == Strip(Pairs(st.text, st.offsets))
  {
  }

  /** A continuous read follows the reference reading exactly: its glyphs
      with their offset entries are a prefix of the reference, all of it
      when every cell was consumed, and what is left is the reference
      reading of the cells not consumed. So a run of folding cells between
      two glyphs leaves exactly one blank, and every glyph read from a cell
      where a word begins carries that cell as its offset. */
  lemma ContinuousFolded(env: Env, f: Flags, s: seq<Unicode>, room: nat)
    requires EquivalencesOk(env.equiv)
    ensures var c := Continuous(env, f, s, room);
      && |c.offsets| == |c.text| + 1
      && (exists g: Gap :: Pairs(c.text, c.offsets) + Folded(env, f, s, Consumed(c), g) == Folded(env, f, s, 0, Leading))
      && Pairs(c.text, c.offsets) <= Folded(env, f, s, 0, Leading)
      && (Consumed(c) == |s| ==> Pairs(c.text, c.offsets) == Folded(env, f, s, 0, Leading))
  {
    var st0 := Scan(0, [], []);
    assert ScanFolded(env, f, s, st0);
    ScannedFolded(env, f, s, room, st0);
    var st := Scanned(env, f, s, room, st0);
    var c := Finish(st);
    FinishPairs(st);
    FinishIsPrefix(st);
    var g := GapOf(st.text);
    assert Pairs(c.text, c.offsets) + Folded(env, f, s, Consumed(c), g) == Folded(env, f, s, 0, Leading);
  }

  /** The reference reading from i carries no offset entry below i. */
  lemma {:induction false} FoldedMarksFrom(env: Env, f: Flags, s: seq<Unicode>, i: nat, gap: Gap)
    ensures forall k :: 0 <= k < |Folded(env, f, s, i, gap)| ==>
      Folded(env, f, s, i, gap)[k].1 == 0 || i <= Folded(env, f, s, i, gap)[k].1
    decreases |s| - i
  {
    if i < |s| {
      if StopsAt(f, s[i]) {
        FoldedMarksFrom(env, f, s, i + 1, gap);
      } else if FoldsToBlank(f, s[i]) {
        FoldedMarksFrom(env, f, s, i + 1, if gap == Leading then Leading else Spaced);
      } else {
        FoldedMarksFrom(env, f, s, i + TokenAt(env, f, s, i).1, Joined);
      }
    }
  }

  /** Every cell from i on where a word begins, other than a blank or a
      stopping newline, appears as an offset entry of the reference
      reading: a word never begins inside a compressed run. */
  lemma {:induction false} FoldedMarksWord(env: Env, f: Flags, s: seq<Unicode>, i: nat, gap: Gap, p: nat)
    requires i <= p < |s| && 0 < p
    requires WordBegins(env.loc, s, p) && !FoldsToBlank(f, s[p]) && !StopsAt(f, s[p])
    ensures exists k :: 0 <= k < |Folded(env, f, s, i, gap)| && Folded(env, f, s, i, gap)[k].1 == p
    decreases |s| - i
  {
    var r := Folded(env, f, s, i, gap);
    if StopsAt(f, s[i]) {
      FoldedMarksWord(env, f, s, i + 1, gap, p);
    } else if FoldsToBlank(f, s[i]) {
      FoldedMarksWord(env, f, s, i + 1, if gap == Leading then Leading else Spaced, p);
    } else {
      var t := TokenAt(env, f, s, i);
      var pre: seq<(Glyph, nat)> := if gap == Spaced then [(Blank, 0)] else [];
      var rest := Folded(env, f, s, i + t.1, Joined);
      FoldedReadsToken(env, f, s, i, gap);
      if i == p {
        assert r[|pre|].1 == p;
      } else {
        NoWordInsideToken(env, f, s, i, p);
        FoldedMarksWord(env, f, s, i + t.1, Joined, p);
        var k :| 0 <= k < |rest| && rest[k].1 == p;
        assert r[|pre| + 1 + k] == rest[k];
      }
    }
  }

  /** A word does not begin inside a token other than at its first cell:
      a compressed run of marks is one word. */
  lemma NoWordInsideToken(env: Env, f: Flags, s: seq<Unicode>, i: nat, p: nat)
    requires i < p < |s| && WordBegins(env.loc, s, p)
    ensures i + TokenAt(env, f, s, i).1 <= p
  {
    if RepeatAt(env, f, s, i) && p < i + RunAhead(s, i) {
      RepeatRunIsOneWord(env.loc, s, i, RunAhead(s, i));
      assert false;
    }
  }

  /** Offsets are complete: every cell of the consumed text where a word
      begins, other than the first, a blank or a stopping newline, is the
      offset entry of the glyph read from it. */
  lemma ContinuousMarksEveryWord(env: Env, f: Flags, s: seq<Unicode>, room: nat, p: nat)
    requires EquivalencesOk(env.equiv)
    requires 0 < p < |s| && p < Consumed(Continuous(env, f, s, room))
    requires WordBegins(env.loc, s, p) && !FoldsToBlank(f, s[p]) && !StopsAt(f, s[p])
    ensures var c := Continuous(env, f, s, room);
      exists j :: 0 <= j < |c.text| && c.offsets[j] == p && GlyphFrom(env, s, p, c.text[j])
  {
    var c := Continuous(env, f, s, room);
    ContinuousFolded(env, f, s, room);
    ContinuousOffsets(env, f, s, room);
    var pc := Pairs(c.text, c.offsets);
    var g :| pc + Folded(env, f, s, Consumed(c), g) == Folded(env, f, s, 0, Leading);
    FoldedMarksWord(env, f, s, 0, Leading, p);
    var whole := Folded(env, f, s, 0, Leading);
    var k :| 0 <= k < |whole| && whole[k].1 == p;
    if k >= |pc| {
      FoldedMarksFrom(env, f, s, Consumed(c), g);
      assert false;
    }
    assert pc[k] == whole[k];
    assert c.offsets[k] == p;
  }

  /** "a b" reads as the two letters with one blank between them, and the
      second letter, a word start, carries its cell as offset. */
  lemma TwoWordsRead(env: Env, f: Flags)
    requires EquivalencesOk(env.equiv) && LocaleOk(env.loc)
    ensures Continuous(env, f, [97, 32, 98], 10) == Chunk([Char(97), Blank, Char(98)], [0, 0, 2, 3])
  {
    var s: seq<Unicode> := [97, 32, 98];
    var c := Continuous(env, f, s, 10);
    var want := [(Char(97), 0), (Blank, 0), (Char(98), 2)];
    TwoWordsReference(env, f);
    ContinuousFolded(env, f, s, 10);
    assert |c.text| <= 3;
    ContinuousProgress(env, f, s, 10);
    assert Pairs(c.text, c.offsets) == want;
    assert c.text == [Char(97), Blank, Char(98)];
    assert c.offsets == [0, 0, 2, 3];
  }

  /** The reference reading of "a b". */
  lemma TwoWordsReference(env: Env, f: Flags)
    requires EquivalencesOk(env.equiv) && LocaleOk(env.loc)
    ensures Folded(env, f, [97, 32, 98], 0, Leading) == [(Char(97), 0), (Blank, 0), (Char(98), 2)]
  {
    var s: seq<Unicode> := [97, 32, 98];
    assert env.loc.isAlpha(97) && !env.loc.isAlpha(32);
    assert !Glued(env.loc, s, 1);
    assert Folded(env, f, s, 3, Joined) == [];
    assert Folded(env, f, s, 2, Spaced) == [(Blank, 0), (Char(98), 2)];
    assert Folded(env, f, s, 1, Joined) == [(Blank, 0), (Char(98), 2)];
  }

  // ---------------------------------------------------------------------
  // One word at a time

  /** Number of blanks starting at i. */
  function BlanksAhead(s: seq<Unicode>, i: nat): (n: nat)
    requires i <= |s|
    ensures i + n <= |s|
    ensures forall k :: i <= k < i + n ==> IsBlank(s[k])
    ensures i + n == |s| || !IsBlank(s[i + n])
    decreases |s| - i
  {
    if i < |s| && IsBlank(s[i]) then 1 + BlanksAhead(s, i + 1) else 0
  }

  /** One word (or one repeat token, or one other cell) from the cursor,
      truncated to the room available; a word read whole also consumes the
      blanks after it, so that the next call lands on the next word. */
  function OneWord(env: Env, f: Flags, s: seq<Unicode>, room: nat): (c: Chunk)
    ensures |c.offsets| == |c.text| + 1
    ensures forall j :: 0 <= j < |c.text| ==> c.offsets[j] == 0
  {
    if |s| == 0 || room == 0 then Chunk([], [0])
    else if RepeatAt(env, f, s, 0) then RepeatToken(env, s)
    else
      var w := WordEnd(env.loc, s, 0) + 1;
      var len := if w <= room then w else room;
      Chunk(Copied(env, s, len), seq(len, _ => 0) + [if len == w then w + BlanksAhead(s, w) else len])
  }

  /** The run of marks at the cursor as one repeat glyph, consumed with the
      blanks after it. */
  function RepeatToken(env: Env, s: seq<Unicode>): (c: Chunk)
    requires |s| > 0
    ensures |c.text| == 1 && c.text[0] == Repeat(Downshift(env.equiv, s[0]), RunAhead(s, 0))
    ensures |c.offsets| == 2 && c.offsets[0] == 0
    ensures Consumed(c) == RunAhead(s, 0) + BlanksAhead(s, RunAhead(s, 0))
  {
    var n := RunAhead(s, 0);
    Chunk([Repeat(Downshift(env.equiv, s[0]), n)], [0, n + BlanksAhead(s, n)])
  }

  /** The first len cells, downshifted one by one. */
  function Copied(env: Env, s: seq<Unicode>, len: nat): (t: seq<Glyph>)
    requires len <= |s|
    ensures |t| == len
    ensures forall j :: 0 <= j < len ==> t[j] == Char(Downshift(env.equiv, s[j]))
  {
    seq(len, k requires 0 <= k < len => Char(Downshift(env.equiv, s[k])))
  }

  /** The bounds and offsets of a one-word read. */
  lemma OneWordOffsets(env: Env, f: Flags, s: seq<Unicode>, room: nat)
    ensures var c := OneWord(env, f, s, room);
      && |c.text| <= room
      && OffsetsOk(env, s, c)
      && (|s| == 0 || room == 0 <==> c.text == [])
      && (|s| > 0 && room > 0 ==> Consumed(c) > 0)
  {
  }

  /** One-word reading yields one word: whole when it fits, else its first
      room cells; or the single repeat token of a run of marks. */
  lemma OneWordIsOneWord(env: Env, f: Flags, s: seq<Unicode>, room: nat)
    requires |s| > 0 && room > 0
    ensures var c := OneWord(env, f, s, room);
      && (RepeatAt(env, f, s, 0) ==>
            && c.text == [Repeat(Downshift(env.equiv, s[0]), RunAhead(s, 0))]
            && WordEnd(env.loc, s, 0) + 1 >= RunAhead(s, 0))
      && (!RepeatAt(env, f, s, 0) ==>
            && (forall j :: 0 <= j < |c.text| ==> c.text[j] == Char(Downshift(env.equiv, s[j])))
            && (forall k :: 0 <= k < |c.text| - 1 ==> Glued(env.loc, s, k))
            && (|c.text| < room ==> |c.text| == |s| || !Glued(env.loc, s, |c.text| - 1)))
  {
    if RepeatAt(env, f, s, 0) {
      RepeatRunIsOneWord(env.loc, s, 0, RunAhead(s, 0));
    }
  }

  /** Past the word it reads, a one-word read consumes only blanks; and a
      word read whole takes every blank after it, so the next read starts
      on the next word or at the end. */
  lemma OneWordConsumesBlanks(env: Env, f: Flags, s: seq<Unicode>, room: nat)
    ensures var c := OneWord(env, f, s, room);
      forall k :: 0 < k < |s| && k < Consumed(c) && !Glued(env.loc, s, k - 1) ==> IsBlank(s[k])
    ensures var c := OneWord(env, f, s, room);
      |s| > 0 && room > 0 && !RepeatAt(env, f, s, 0) && |c.text| == WordEnd(env.loc, s, 0) + 1 ==>
        && Consumed(c) <= |s|
        && (Consumed(c) == |s| || !IsBlank(s[Consumed(c)]))
        && (forall k :: |c.text| <= k < Consumed(c) ==> IsBlank(s[k]))
  {
    var c := OneWord(env, f, s, room);
    if |s| > 0 && room > 0 {
      if RepeatAt(env, f, s, 0) {
        var n := RunAhead(s, 0);
        RepeatRunIsOneWord(env.loc, s, 0, n);
        forall k | 0 < k < |s| && k < Consumed(c) && !Glued(env.loc, s, k - 1)
          ensures IsBlank(s[k])
        {
          assert k >= n;
        }
      } else {
        var w := WordEnd(env.loc, s, 0) + 1;
        forall k | 0 < k < |s| && k < Consumed(c) && !Glued(env.loc, s, k - 1)
          ensures IsBlank(s[k])
        {
          assert k >= w;
        }
      }
    }
  }

  /** The repeat token of a one-word read covers the whole run of marks. */
  lemma OneWordRepeatCoversRun(env: Env, f: Flags, s: seq<Unicode>, room: nat)
    requires |s| > 0 && room > 0 && RepeatAt(env, f, s, 0)
    ensures var c := OneWord(env, f, s, room);
      && Consumed(c) >= RunAhead(s, 0)
      && (Consumed(c) < |s| ==> !IsBlank(s[Consumed(c)]))
      && (forall k :: RunAhead(s, 0) <= k < Consumed(c) ==> IsBlank(s[k]))
  {
    assert OneWord(env, f, s, room) == RepeatToken(env, s);
  }

  // ---------------------------------------------------------------------
  // The call

  /** The cells from the reading cursor to the end of the buffer. */
  function FromCursor(b: Buffer): (s: seq<Unicode>)
    requires Valid(b)
    ensures b.cursor.None? ==> s == []
    ensures b.cursor.Some? ==> |s| == b.End() - b.cursor.value
    ensures b.cursor.Some? ==> forall k :: 0 <= k < |s| ==> s[k] == b.At(b.cursor.value + k)
  {
    if b.cursor.None? then [] else b.cells[b.cursor.value - b.base..]
  }

  /** acs_getsentence with a destination of destlen bytes: a chunk of at most
      destlen - 1 glyphs, read one word at a time or continuously. */
  function GetSentence(env: Env, b: Buffer, destlen: int, properties: int): (c: Chunk)
    requires Valid(b) && destlen >= 1
    requires EquivalencesOk(env.equiv)
    ensures |c.text| <= destlen - 1
    ensures OffsetsOk(env, FromCursor(b), c)
    ensures Consumed(c) <= |FromCursor(b)|
    ensures IsEmpty(b) || b.cursor.None? ==> c.text == [] && Consumed(c) == 0
    ensures b.cursor.Some? && destlen >= 2 ==> Consumed(c) > 0
    ensures !FlagsOf(properties).oneWord ==> BlanksFolded(c.text)
    ensures !FlagsOf(properties).oneWord ==>
      Pairs(c.text, c.offsets) <= Folded(env, FlagsOf(properties), FromCursor(b), 0, Leading)
  {
    var s := FromCursor(b);
    var f := FlagsOf(properties);
    if f.oneWord then
      OneWordOffsets(env, f, s, destlen - 1);
      OneWord(env, f, s, destlen - 1)
    else
      ContinuousCall(env, f, s, destlen - 1);
      Continuous(env, f, s, destlen - 1)
  }

  /** What a continuous read promises its caller. */
  lemma ContinuousCall(env: Env, f: Flags, s: seq<Unicode>, room: nat)
    requires EquivalencesOk(env.equiv)
    ensures var c := Continuous(env, f, s, room);
      && |c.text| <= room
      && OffsetsOk(env, s, c)
      && (|s| == 0 ==> c.text == [] && Consumed(c) == 0)
      && (|s| > 0 && room > 0 ==> Consumed(c) > 0)
      && BlanksFolded(c.text)
      && Pairs(c.text, c.offsets) <= Folded(env, f, s, 0, Leading)
  {
    ContinuousOffsets(env, f, s, room);
    ContinuousProgress(env, f, s, room);
  }

  /** What a chunk read from s promises about its content: blanks aside
      its text is the plain reading of the cells it consumed, and with its
      offsets it is the folded reference reading of those cells, all of it
      when every cell was consumed. */
  predicate FollowsReference(env: Env, f: Flags, s: seq<Unicode>, c: Chunk) {
    && |c.offsets| == |c.text| + 1
    && NonBlank(c.text) + Reading(env, f, s, Consumed(c)) == Reading(env, f, s, 0)
    && (exists g: Gap :: Pairs(c.text, c.offsets) + Folded(env, f, s, Consumed(c), g) == Folded(env, f, s, 0, Leading))
    && (Consumed(c) == |s| ==> Pairs(c.text, c.offsets) == Folded(env, f, s, 0, Leading))
  }

  /** A continuous read follows the reference readings. */
  lemma ContinuousFollows(env: Env, f: Flags, s: seq<Unicode>, room: nat)
    requires EquivalencesOk(env.equiv)
    ensures FollowsReference(env, f, s, Continuous(env, f, s, room))
  {
    ContinuousContent(env, f, s, room);
    ContinuousFolded(env, f, s, room);
  }

  /** Read continuously, acs_getsentence copies exactly the folded
      reference reading of the cells it consumes. */
  lemma GetSentenceContent(env: Env, b: Buffer, destlen: int, properties: int)
    requires Valid(b) && destlen >= 1
    requires EquivalencesOk(env.equiv)
    requires !FlagsOf(properties).oneWord
    ensures FollowsReference(env, FlagsOf(properties), FromCursor(b), GetSentence(env, b, destlen, properties))
  {
    GetSentenceReadsOn(env, b, destlen, properties);
    ContinuousFollows(env, FlagsOf(properties), FromCursor(b), destlen - 1);
  }

  /** Without the one-word option, acs_getsentence is a continuous read. */
  lemma GetSentenceReadsOn(env: Env, b: Buffer, destlen: int, properties: int)
    requires Valid(b) && destlen >= 1
    requires EquivalencesOk(env.equiv)
    requires !FlagsOf(properties).oneWord
    ensures GetSentence(env, b, destlen, properties) == Continuous(env, FlagsOf(properties), FromCursor(b), destlen - 1)
  {
  }

  /** The continuous read as a loop over the cells, the way the bridge
      copies text into the caller's array. */
  method ReadContinuous(env: Env, f: Flags, s: seq<Unicode>, room: nat) returns (c: Chunk)
    requires EquivalencesOk(env.equiv)
    ensures c == Continuous(env, f, s, room)
    ensures |c.text| <= room && BlanksFolded(c.text) && OffsetsOk(env, s, c)
    ensures FollowsReference(env, f, s, c)
  {
    var i := 0;
    var text: seq<Glyph> := [];
    var offsets: seq<nat> := [];
    var stop := false;
    while i < |s| && |text| < room && !stop
      invariant i <= |s| && |offsets| == |text|
      invariant stop <==> 0 < i && StopsAt(f, s[i - 1])
      invariant Scanned(env, f, s, room, Scan(i, text, offsets)) == Scanned(env, f, s, room, Scan(0, [], []))
      decreases |s| - i
    {
      ghost var st := Scan(i, text, offsets);
      assert Going(f, s, room, st);
      var ch := s[i];
      if f.stopLine && ch == NL {
        i := i + 1;
        stop := true;
      } else if IsBlank(ch) || (f.nlSpace && ch == NL) {
        if |text| > 0 && text[|text| - 1] != Blank {
          text := text + [Blank];
          offsets := offsets + [0];
        }
        i := i + 1;
      } else {
        var mark := if WordBegins(env.loc, s, i) then i else 0;
        if f.repeat && IsPunct(env.loc, ch) && RunAhead(s, i) >= 5 {
          var n := RunAhead(s, i);
          text := text + [Repeat(Downshift(env.equiv, ch), n)];
          i := i + n;
        } else {
          text := text + [Char(Downshift(env.equiv, ch))];
          i := i + 1;
        }
        offsets := offsets + [mark];
      }
      assert Scan(i, text, offsets) == Step(env, f, s, st);
    }
    ghost var last := Scan(i, text, offsets);
    assert !Going(f, s, room, last);
    assert Scanned(env, f, s, room, Scan(0, [], [])) == last;
    if |text| > 0 && text[|text| - 1] == Blank {
      text := text[..|text| - 1];
      offsets := offsets[..|offsets| - 1];
    }
    c := Chunk(text, offsets + [i]);
    assert c == Finish(last);
    ContinuousCall(env, f, s, room);
    ContinuousFollows(env, f, s, room);
  }
}

=== FILE: speech.dfy ===
/** Index-marker flow control: a sentence is sent with a marker at the start
    of each word, the synthesizer echoes the markers back as it speaks, each
    echo moves the reading cursor onto the word being heard, and the unit
    counts as still talking until the last marker has come back.

    The bytes of a marker, of the interrupt and of the completion signal
    depend on the synthesizer style and are not part of this model; what is
    modelled is the bookkeeping: which ids go out, which are outstanding, and
    where each one puts the cursor. */
module Speech {
  import opened Wrappers
  import opened Chars
  import opened ReadingBuffer
  import opened Sentence

  /** The protocol family of the synthesizer; the generic style has no
      index markers at all. */
  datatype Style = Generic | DoubleTalk | DecExpress | DecPc | BrailleNSpeak | Accent

  /** The highest index-marker id a synthesizer accepts. */
  const MaxMark: int := 99

  /** The talking state of the bridge: the style, the ids still to come back,
      the last id sent, the buffer offset (from the anchor) of the word each
      id marks, and the reading cursor the offsets are relative to. */
  datatype Talking = Talking(
    style: Style,
    outstanding: set<int>,
    lastMark: int,
    markOfs: map<int, nat>,
    anchor: Option<int>)

  /** Outstanding ids are ids that were sent, within 0..99, and a generic
      synthesizer never has any. */
  predicate TalkingOk(t: Talking) {
    && (forall id :: id in t.outstanding ==> id in t.markOfs && 0 <= id <= MaxMark)
    && (t.style == Generic ==> t.outstanding == {})
  }

  /** ss_stillTalking: a marked sentence is still being spoken, that is,
      some marker sent with it has not come back; a generic synthesizer,
      having no markers, is never talking in this sense. */
  function StillTalking(t: Talking): (b: bool)
    ensures TalkingOk(t) ==> (b <==> exists id :: 0 <= id <= MaxMark && id in t.outstanding)
    ensures TalkingOk(t) && t.style == Generic ==> !b
  {
    if TalkingOk(t) && t.outstanding != {} then
      OutstandingHasId(t);
      true
    else t.outstanding != {}
  }

  /** A talking state with something outstanding names an id in 0..99. */
  lemma OutstandingHasId(t: Talking)
    requires TalkingOk(t) && t.outstanding != {}
    ensures exists id :: 0 <= id <= MaxMark && id in t.outstanding
  {
    if forall id :: id !in t.outstanding {
      assert false;
    }
  }

  /** The indices of the text that carry a marker: those below n with a
      nonzero offset, in ascending order. */
  function Marked(offsets: seq<nat>, n: nat): (ps: seq<nat>)
    requires n <= |offsets|
    ensures |ps| <= n
    ensures forall k :: 0 <= k < |ps| ==> ps[k] < n && offsets[ps[k]] != 0
    ensures forall k1, k2 :: 0 <= k1 < k2 < |ps| ==> ps[k1] < ps[k2]
    ensures forall j :: 0 <= j < n && offsets[j] != 0 ==> j in ps
  {
    if n == 0 then []
    else
      var ps := Marked(offsets, n - 1);
      if offsets[n - 1] != 0 then ps + [n - 1] else ps
  }

  /** Why a marked send is refused. */
  datatype SendError = MarkOutOfRange

  /** The ids a send with count markers from firstmark would use. */
  function IdRange(firstmark: int, count: nat): (ids: set<int>)
    ensures forall id :: id in ids <==> firstmark <= id < firstmark + count
  {
    if count == 0 then {} else IdRange(firstmark, count - 1) + {firstmark + count - 1}
  }

  /** The offset of the word each id marks: id firstmark + k marks the k-th
      marked index, for k below count. */
  function MarkMap(offsets: seq<nat>, ps: seq<nat>, firstmark: int, count: nat): (m: map<int, nat>)
    requires count <= |ps|
    requires forall k :: 0 <= k < |ps| ==> ps[k] < |offsets|
    ensures forall id :: id in m <==> firstmark <= id < firstmark + count
    ensures forall k :: 0 <= k < count ==> m[firstmark + k] == offsets[ps[k]]
  {
    if count == 0 then map[]
    else MarkMap(offsets, ps, firstmark, count - 1)[firstmark + count - 1 := offsets[ps[count - 1]]]
  }

  /** No nonzero offset, no marker. */
  lemma {:induction false} NoMarksWithoutOffsets(offsets: seq<nat>, n: nat)
    requires n <= |offsets|
    requires forall j :: 0 <= j < n ==> offsets[j] == 0
    ensures Marked(offsets, n) == []
  {
    if n > 0 {
      NoMarksWithoutOffsets(offsets, n - 1);
    }
  }

  /** ss_say_string_imarks: send text with one marker per nonzero offset
      entry; the k-th marked index gets id firstmark + k. With no markers to
      send (none marked, or a generic synthesizer) the text is a snippet,
      spoken at once. A send whose ids would leave 0..99 is refused. */
  function SayStringImarks(t: Talking, cursor: Option<int>, text: seq<Glyph>, offsets: seq<nat>, firstmark: int)
    : (r: Result<Talking, SendError>)
    requires TalkingOk(t)
    requires |text| <= |offsets|
    ensures var ps := Marked(offsets, |text|);
      && (r.Failure? <==>
            t.style != Generic && |ps| > 0 && (firstmark < 0 || firstmark + |ps| - 1 > MaxMark))
      && (r.Success? ==> TalkingOk(r.value) && r.value.style == t.style)
      && (r.Success? && (t.style == Generic || |ps| == 0) ==> r.value == t)
      && (r.Success? && t.style != Generic && |ps| > 0 ==>
            && StillTalking(r.value)
            && r.value.anchor == cursor
            && r.value.lastMark == firstmark + |ps| - 1
            && (forall id :: id in r.value.outstanding <==> firstmark <= id < firstmark + |ps|)
            && (forall k :: 0 <= k < |ps| ==>
                  firstmark + k in r.value.markOfs && r.value.markOfs[firstmark + k] == offsets[ps[k]])
            && (forall id :: id in r.value.outstanding ==> 0 <= id <= MaxMark))
  {
    var ps := Marked(offsets, |text|);
    var count := |ps|;
    if t.style == Generic || count == 0 then Success(t)
    else if firstmark < 0 || firstmark + count - 1 > MaxMark then Failure(MarkOutOfRange)
    else
      assert firstmark in IdRange(firstmark, count);
      Success(Talking(t.style, IdRange(firstmark, count), firstmark + count - 1,
        MarkMap(offsets, ps, firstmark, count),
        cursor))
  }

  /** ss_say_string, ss_say_char: a snippet without markers is taken as
      spoken at once, so the talking state does not change. */
  function SayString(t: Talking, text: seq<Glyph>): (t': Talking)
    requires TalkingOk(t)
    ensures TalkingOk(t')
    ensures StillTalking(t') <==> StillTalking(t)
    ensures t'.outstanding == t.outstanding
  {
    t
  }

  /** A marked send from a quiet state without any marker leaves the unit
      not talking. */
  lemma UnmarkedSendIsSpokenAtOnce(t: Talking, cursor: Option<int>, text: seq<Glyph>, offsets: seq<nat>, firstmark: int)
    requires TalkingOk(t) && !StillTalking(t)
    requires |text| <= |offsets|
    requires t.style == Generic || forall j :: 0 <= j < |text| ==> offsets[j] == 0
    ensures var r := SayStringImarks(t, cursor, text, offsets, firstmark);
      r.Success? && !StillTalking(r.value)
  {
    if t.style != Generic {
      NoMarksWithoutOffsets(offsets, |text|);
    }
  }

  /** The state and buffer after a marker comes back. */
  datatype Heard = Heard(talking: Talking, buf: Buffer)

  /** An index marker m comes back from the synthesizer. Markers return in
      the order they were sent, so m and every id before it are spoken. The
      reading cursor moves to the word m marks, or is lost if that text has
      left the buffer. A marker not outstanding is ignored. */
  function OnMarker(t: Talking, b: Buffer, m: int): (h: Heard)
    requires TalkingOk(t) && Valid(b)
    ensures TalkingOk(h.talking) && Valid(h.buf)
    ensures h.buf.cells == b.cells && h.buf.base == b.base && h.buf.marks == b.marks && h.buf.mode == b.mode
    ensures h.buf.vCursor == b.vCursor
    ensures h.talking.markOfs == t.markOfs && h.talking.anchor == t.anchor && h.talking.style == t.style
    ensures h.talking.lastMark == t.lastMark
    ensures h.talking.outstanding <= t.outstanding
    ensures m !in t.outstanding ==> h == Heard(t, b)
    ensures m in t.outstanding ==>
      && (forall id :: id in h.talking.outstanding <==> id in t.outstanding && id > m)
      && (t.anchor.Some? && b.InWindow(t.anchor.value + t.markOfs[m]) ==>
            h.buf.cursor == Some(t.anchor.value + t.markOfs[m]))
      && (t.anchor.Some? && !b.InWindow(t.anchor.value + t.markOfs[m]) ==> h.buf.cursor.None?)
      && (t.anchor.None? ==> h.buf == b)
  {
    if m !in t.outstanding then Heard(t, b)
    else
      var t' := t.(outstanding := set id | id in t.outstanding && id > m);
      if t.anchor.None? then Heard(t', b)
      else
        var target := t.anchor.value + t.markOfs[m];
        Heard(t', b.(cursor := if b.InWindow(target) then Some(target) else None))
  }

  /** The markers ms come back one after another. */
  function Deliver(t: Talking, b: Buffer, ms: seq<int>): (h: Heard)
    requires TalkingOk(t) && Valid(b)
    ensures TalkingOk(h.talking) && Valid(h.buf)
    ensures h.talking.markOfs == t.markOfs && h.talking.anchor == t.anchor
    ensures h.talking.outstanding <= t.outstanding
    decreases |ms|
  {
    if |ms| == 0 then Heard(t, b)
    else
      var h := Deliver(t, b, ms[..|ms| - 1]);
      OnMarker(h.talking, h.buf, ms[|ms| - 1])
  }

  /** The ids firstmark, firstmark + 1, ..., firstmark + i - 1. */
  function Ids(firstmark: int, i: nat): (ms: seq<int>)
    ensures |ms| == i && forall k :: 0 <= k < i ==> ms[k] == firstmark + k
  {
    seq(i, k => firstmark + k)
  }

  /** After the first i of count markers have come back, exactly the rest
      are outstanding. */
  lemma {:induction false} MarkersDrain(t: Talking, b: Buffer, firstmark: int, count: nat, i: nat)
    requires TalkingOk(t) && Valid(b)
    requires forall id :: id in t.outstanding <==> firstmark <= id < firstmark + count
    requires i <= count
    ensures forall id :: id in Deliver(t, b, Ids(firstmark, i)).talking.outstanding <==>
      firstmark + i <= id < firstmark + count
  {
    if i > 0 {
      MarkersDrain(t, b, firstmark, count, i - 1);
      assert Ids(firstmark, i)[..i - 1] == Ids(firstmark, i - 1);
      var h := Deliver(t, b, Ids(firstmark, i - 1));
    }
  }

  /** Talking-state convergence: after a marked send, the unit is still
      talking until the last of its markers is back, and not after. */
  lemma TalkingConverges(t: Talking, b: Buffer, cursor: Option<int>, text: seq<Glyph>, offsets: seq<nat>,
                         firstmark: int, i: nat)
    requires TalkingOk(t) && Valid(b)
    requires |text| <= |offsets|
    requires SayStringImarks(t, cursor, text, offsets, firstmark).Success?
    requires t.style != Generic
    requires 0 < |Marked(offsets, |text|)| && i <= |Marked(offsets, |text|)|
    ensures var t' := SayStringImarks(t, cursor, text, offsets, firstmark).value;
      StillTalking(Deliver(t', b, Ids(firstmark, i)).talking) <==> i < |Marked(offsets, |text|)|
  {
    var count := |Marked(offsets, |text|)|;
    var t' := SayStringImarks(t, cursor, text, offsets, firstmark).value;
    MarkersDrain(t', b, firstmark, count, i);
    var out := Deliver(t', b, Ids(firstmark, i)).talking.outstanding;
    if i < count {
      assert firstmark + i in out;
    } else {
      assert out == {};
    }
  }

  /** The last marker alone ends the talking: markers arrive in order, so
      hearing it means every earlier word was spoken. */
  lemma LastMarkerEndsTalking(t: Talking, b: Buffer)
    requires TalkingOk(t) && Valid(b)
    requires StillTalking(t)
    requires forall id :: id in t.outstanding ==> id <= t.lastMark
    requires t.lastMark in t.outstanding
    ensures !StillTalking(OnMarker(t, b, t.lastMark).talking)
  {
    var out := OnMarker(t, b, t.lastMark).talking.outstanding;
    assert forall id :: id in out ==> id > t.lastMark;
  }

  /** Marker round trip: the k-th marker of a send puts the reading cursor
      at the k-th marked offset from the cursor the text was read from. */
  lemma MarkerMovesCursor(t: Talking, b: Buffer, text: seq<Glyph>, offsets: seq<nat>, firstmark: int, k: nat)
    requires TalkingOk(t) && Valid(b) && b.cursor.Some?
    requires |text| <= |offsets|
    requires SayStringImarks(t, b.cursor, text, offsets, firstmark).Success?
    requires t.style != Generic
    requires k < |Marked(offsets, |text|)|
    ensures var t' := SayStringImarks(t, b.cursor, text, offsets, firstmark).value;
      var target := b.cursor.value + offsets[Marked(offsets, |text|)[k]];
      && (b.InWindow(target) ==> OnMarker(t', b, firstmark + k).buf.cursor == Some(target))
      && (!b.InWindow(target) ==> OnMarker(t', b, firstmark + k).buf.cursor.None?)
      && (StillTalking(OnMarker(t', b, firstmark + k).talking) <==> k + 1 < |Marked(offsets, |text|)|)
  {
    var ps := Marked(offsets, |text|);
    var t' := SayStringImarks(t, b.cursor, text, offsets, firstmark).value;
    MarkerInRange(t', b, firstmark, |ps|, k);
  }

  /** The k-th of count outstanding markers, coming back first. */
  lemma MarkerInRange(t: Talking, b: Buffer, firstmark: int, count: nat, k: nat)
    requires TalkingOk(t) && Valid(b) && t.anchor == b.cursor && b.cursor.Some?
    requires forall id :: id in t.outstanding <==> firstmark <= id < firstmark + count
    requires k < count
    ensures var h := OnMarker(t, b, firstmark + k);
      var target := b.cursor.value + t.markOfs[firstmark + k];
      && (b.InWindow(target) ==> h.buf.cursor == Some(target))
      && (!b.InWindow(target) ==> h.buf.cursor.None?)
      && (StillTalking(h.talking) <==> k + 1 < count)
  {
    assert firstmark + k in t.outstanding;
    var out := OnMarker(t, b, firstmark + k).talking.outstanding;
    if k + 1 < count {
      assert firstmark + k + 1 in out;
    } else {
      assert out == {};
    }
  }

  /** Reading a sentence with acs_getsentence and sending it with markers
      keeps the cursor on the words: every returned marker moves the reading
      cursor, inside the window, onto the first cell of a word. */
  lemma {:induction false} MarkerLandsOnWord(env: Env, t: Talking, b: Buffer, destlen: int, properties: int, firstmark: int, k: nat)
    requires TalkingOk(t) && Valid(b) && b.cursor.Some?
    requires destlen >= 1 && EquivalencesOk(env.equiv)
    requires t.style != Generic
    requires var c := GetSentence(env, b, destlen, properties);
      && SayStringImarks(t, b.cursor, c.text, c.offsets, firstmark).Success?
      && k < |Marked(c.offsets, |c.text|)|
    ensures var c := GetSentence(env, b, destlen, properties);
      var t' := SayStringImarks(t, b.cursor, c.text, c.offsets, firstmark).value;
      var h := OnMarker(t', b, firstmark + k);
      && h.buf.cursor.Some?
      && b.InWindow(h.buf.cursor.value)
      && var ofs := h.buf.cursor.value - b.cursor.value;
         0 < ofs < |FromCursor(b)| && WordBegins(env.loc, FromCursor(b), ofs)
  {
    var c := GetSentence(env, b, destlen, properties);
    MarkedStartsWord(env, FromCursor(b), c, k);
    MarkerLandsOnWordOf(env, t, b, c.text, c.offsets, firstmark, k);
  }

  /** MarkerLandsOnWord for a send whose k-th marked offset starts a word
      among the cells from the cursor. */
  lemma {:induction false} MarkerLandsOnWordOf(env: Env, t: Talking, b: Buffer, text: seq<Glyph>, offsets: seq<nat>, firstmark: int, k: nat)
    requires TalkingOk(t) && Valid(b) && b.cursor.Some?
    requires t.style != Generic && |text| <= |offsets|
    requires SayStringImarks(t, b.cursor, text, offsets, firstmark).Success?
    requires k < |Marked(offsets, |text|)|
    requires var ofs := offsets[Marked(offsets, |text|)[k]];
      0 < ofs < |FromCursor(b)| && WordBegins(env.loc, FromCursor(b), ofs)
    ensures var t' := SayStringImarks(t, b.cursor, text, offsets, firstmark).value;
      var h := OnMarker(t', b, firstmark + k);
      && h.buf.cursor.Some?
      && b.InWindow(h.buf.cursor.value)
      && var ofs := h.buf.cursor.value - b.cursor.value;
         0 < ofs < |FromCursor(b)| && WordBegins(env.loc, FromCursor(b), ofs)
  {
    MarkerMovesCursor(t, b, text, offsets, firstmark, k);
    var t' := SayStringImarks(t, b.cursor, text, offsets, firstmark).value;
    LandsOnWord(env, b, OnMarker(t', b, firstmark + k), offsets[Marked(offsets, |text|)[k]]);
  }

  /** A cursor moved to a word start ofs cells ahead, inside the cells from
      the cursor, lands in the window on that word. */
  lemma LandsOnWord(env: Env, b: Buffer, h: Heard, ofs: nat)
    requires Valid(b) && b.cursor.Some?
    requires 0 < ofs < |FromCursor(b)| && WordBegins(env.loc, FromCursor(b), ofs)
    requires b.InWindow(b.cursor.value + ofs) ==> h.buf.cursor == Some(b.cursor.value + ofs)
    ensures h.buf.cursor.Some? && b.InWindow(h.buf.cursor.value)
    ensures 0 < h.buf.cursor.value - b.cursor.value < |FromCursor(b)|
    ensures WordBegins(env.loc, FromCursor(b), h.buf.cursor.value - b.cursor.value)
  {
  }

  /** In a chunk whose offsets are in shape, every marked offset is the
      start of a word among the cells consumed. */
  lemma MarkedStartsWord(env: Env, s: seq<Unicode>, c: Chunk, k: nat)
    requires OffsetsOk(env, s, c)
    requires k < |Marked(c.offsets, |c.text|)|
    ensures var ofs := c.offsets[Marked(c.offsets, |c.text|)[k]];
      0 < ofs < |s| && WordBegins(env.loc, s, ofs)
  {
    var j := Marked(c.offsets, |c.text|)[k];
    assert j < |c.text| && c.offsets[j] != 0;
  }

  /** ss_shutup: speech stops and every outstanding marker is dropped, for
      none of them will come back. */
  function Shutup(t: Talking): (t': Talking)
    requires TalkingOk(t)
    ensures TalkingOk(t') && !StillTalking(t')
    ensures t'.style == t.style
  {
    t.(outstanding := {})
  }

  /** After a shutup, a marker that still trickles in changes nothing: the
      cursor stays where the user left it. */
  lemma MarkerAfterShutupIgnored(t: Talking, b: Buffer, m: int)
    requires TalkingOk(t) && Valid(b)
    ensures OnMarker(Shutup(t), b, m) == Heard(Shutup(t), b)
  {
  }

  /** A duplicate or stale marker, for an id already accounted for, changes
      nothing. */
  lemma StaleMarkerIgnored(t: Talking, b: Buffer, m: int)
    requires TalkingOk(t) && Valid(b)
    ensures var h := OnMarker(t, b, m);
      OnMarker(h.talking, h.buf, m) == h
  {
  }
}

=== FILE: wrappers.dfy ===
/** Null-able references and refusable outcomes shared by the model. */
module Wrappers {

  /** A position or value that may be absent: None stands for a null
      pointer or a -1 "not found" answer. */
  datatype Option<+T> = None | Some(value: T)

  /** An outcome that is either a value or the reason it was refused. */
  datatype Result<+R, +E> = Success(value: R) | Failure(error: E)
}
